=== FILE: README.md ===
# ag-mcp content resolution, modelled in Dafny

This project models the core of ag-mcp, an MCP server that answers questions about
AG Grid from its remotely hosted documentation tree. That tree runs from versions to
frameworks, and from frameworks to docs, API docs, migrations and examples. The
model covers seven parts of the server:

- **URL-keyed fetch cache** (`Cache`). It stores each validated response under its
  URL. A truthy stored value is answered without a request. A failed fetch is not
  stored, so the next call for that URL issues a new request.
- **Endpoint graph** (`Models`).
  - A `VersionEndpoint` memoises its index promise. That includes an index that
    failed.
  - It finds the links it needs in that index: `frameworks`, `changelog`, `modules`
    and `types`.
  - It creates one `FrameworkEndpoint` per framework name and returns the same
    object on later calls.
  - A `FrameworkEndpoint` resolves the `docs`, `api`, `migrations` and `examples`
    URLs of its descriptor. It looks up single entries by id or name, and fails
    with the source's messages when an entry is missing.
- **Version list** (`Versions`). It is cached for five minutes. A fetch that fails
  falls back to the stale list, and the module also covers the latest-version
  query, membership, and the newest-first ordering of version strings.
- **Project state and version validation** (`Project`, `VersionValidator`). These
  cover detecting a project, updating it, the default version, and the
  configuration check that raises `VersionValidationError`.
- **Workspaces** (`Workspaces`, `Context`).
  - The workspace identifier, the prompts offered, and the prompt, tool and
    resource lookups.
  - Doc and example search, and licence-filtered docs.
  - The migration path and the feature-availability check over the module groups.
  - How the manifests of the grid packages installed under a root
    (`node_modules/<package>/package.json`) become a grid context, and how the
    workspace list is rebuilt when the client's roots change.
- **`ag-mcp://` resources** (`Resources`). This is routing and the three listed
  resources. Each link the server hands out routes back to the article,
  definition or example it names.
- **Completions** (`Completions`) for language, framework and version arguments.

`Semver` holds the version comparisons and the parser. `Strings`, `Collections`,
`Wrappers` and `Schema` hold the helpers and data types the rest share.

Every `await` is one atomic step. A promise becomes the `Result` it settles to. Where
the source reads from the network or the file system, or calls the content API, the
model takes what that call returns as a parameter:

- the network is a function from URL to response;
- each schema is a validator function;
- `Date.now()` is a number;
- a root's files are a map from package name to version string.

Classes whose fields the source updates in place are Dafny classes whose methods
have `modifies` clauses: `ApiCacheManager`, `VersionEndpoint`, `FrameworkEndpoint`,
the version-list cache, `ProjectStore`, `AgMcpContext` and `Workspace`. Each method
is proved against a pure step function (`FetchStep`, `IndexPhase`, `LinkedPhase`,
`FetchFrom`, `GetVersionsStep`, `DetectStep`, `ValidateStep`, `ContextOf`,
`FeatureAvailable`), and the properties are proved about those functions.

Where the code and the design intent differ, the model follows the code:

- The cache is not single-flight. Two calls for the same URL before the first
  settles both fetch.
- Failed fetches are not kept in the cache. Only an endpoint's `indexData` keeps a
  failed promise, because it stores the promise itself.
- The workspace constructor tests `this.name` before assigning it, so the name
  never takes part in the identifier. The identifier is the last `/` segment of the
  URI, or `workspace` when that segment is empty. `Workspaces.WorkspaceId` models
  this as written.
- The workspace context's `version` is declared as a string in
  `src/workspace/index.ts`. The code reads `.id`, `.isLatest` and `.semver` from it,
  so the model uses the version descriptor record.

## Model

| member | source | states |
|---|---|---|
| Cache.Attempt | src/api/cache.ts:12-29 | a request yields a value exactly when the response is ok, its body decodes and the schema accepts it, and the value is the validator's; a non-ok status gives "HTTP status: text"; every failure names the URL with "Failed to fetch" |
| Cache.FetchStep | src/api/cache.ts:7-30 | a request is made exactly when the stored value is missing or falsy; a hit returns the stored value and leaves the table alone; a failure leaves the table unchanged; a success stores the value under the URL; no other key changes |
| Cache.StoredValueIsReused | src/api/cache.ts:8-26 | after a truthy value is stored, the next call for that URL returns it without a request |
| Cache.FailureIsRetried | src/api/cache.ts:12-29 | after a failed fetch, the next call for the URL requests again |
| Cache.FalsyValueIsRefetched | src/api/cache.ts:8-26 | a stored falsy value does not count as a hit, so the next call requests again |
| Cache.ApiCacheManager.constructor | src/api/cache.ts:4-5 | the cache starts empty and nothing has been requested |
| Cache.ApiCacheManager.FetchAndCache | src/api/cache.ts:7-30 | result and new table are FetchStep's; the request log grows by the URL exactly on a miss |
| Cache.ApiCacheManager.GetCached | src/api/cache.ts:32-34 | some value exactly when the URL is stored, and that value is the stored one |
| Cache.ApiCacheManager.ClearCache | src/api/cache.ts:36-38 | afterwards no URL is cached |
| Cache.ApiCacheManager.HasCached | src/api/cache.ts:40-42 | agrees with GetCached; every hit is reported as cached |
| Models.FindLink | src/api/models.ts:71-75 | none exactly when no index link has the id; otherwise the first link with that id |
| Models.IndexPhase | src/api/models.ts:62-69 | the index promise is memoised once created, failed or not; a failed version resolution is passed on without a request; at most one request is added, and it is for the version's URL; on the first call with a resolved version, the result, table and log are those of one cached fetch of the version's URL under the index schema |
| Models.LinkedPhase | src/api/models.ts:77-107 | a link missing from the index fails with "<Endpoint> endpoint not found in index" and leaves the state of the index phase; an index failure is passed on; otherwise the result, table and log are those of one cached fetch of the link's URL after the index phase |
| Models.Descriptor | src/api/models.ts:48-54 | the first framework entry with that name, "Invalid framework for version" when there is none, or the frameworks failure |
| Models.ExamplesUrl | src/api/models.ts:155-162 | the example list URL for the kind, failing with the source message when the kind is absent or its URL is empty |
| Models.VersionEndpoint.constructor | src/api/models.ts:29-36 | no framework endpoints and no index promise yet |
| Models.VersionEndpoint.GetIndexData | src/api/models.ts:62-69 | result and new state are IndexPhase's; framework endpoints unchanged |
| Models.VersionEndpoint.GetIndexLink | src/api/models.ts:71-75 | the link with that id in the memoised index, or the index failure |
| Models.VersionEndpoint.Frameworks | src/api/models.ts:77-83 | LinkedPhase for the "frameworks" link with the framework-list schema |
| Models.VersionEndpoint.Changelog | src/api/models.ts:85-91 | LinkedPhase for the "changelog" link with the changelog schema |
| Models.VersionEndpoint.Modules | src/api/models.ts:93-99 | LinkedPhase for the "modules" link with the module-list schema |
| Models.VersionEndpoint.Types | src/api/models.ts:101-107 | LinkedPhase for the "types" link, unvalidated |
| Models.VersionEndpoint.Framework | src/api/models.ts:42-60 | a known name returns the same endpoint and changes nothing; a new name creates one whose descriptor is the frameworks list's entry and records it under that name |
| Models.FrameworkTwice | src/api/models.ts:42-60 | two calls with the same name return the identical endpoint object |
| Models.FrameworkEndpoint.constructor | src/api/models.ts:110-114 | the endpoint keeps the cache and the descriptor it is given |
| Models.FrameworkEndpoint.Docs | src/api/models.ts:120-123 | fetches the descriptor's docs URL through the cache, or passes the descriptor failure on |
| Models.FrameworkEndpoint.Doc | src/api/models.ts:125-132 | the first doc with that id, "Doc with id '…' not found", or the list failure |
| Models.FrameworkEndpoint.Api | src/api/models.ts:134-137 | fetches the descriptor's API docs URL through the cache |
| Models.FrameworkEndpoint.Migrations | src/api/models.ts:139-142 | fetches the descriptor's migrations URL through the cache |
| Models.FrameworkEndpoint.Migration | src/api/models.ts:144-153 | the first migration with that version, "Migration with id '…' not found", or the list failure |
| Models.FrameworkEndpoint.Examples | src/api/models.ts:155-164 | fetches the kind's example URL; a missing kind fails without touching the cache |
| Models.FrameworkEndpoint.Example | src/api/models.ts:166-175 | the first example with that name, the not-found message naming the kind, or the list failure |
| Collections.FilterKeepsOrder | src/workspace/index.ts:251-255 | the filter's k-th element is the input's element at the k-th index that satisfies the predicate, and every such index is used once |
| Collections.FilterCount | src/workspace/index.ts:251-255 | the filter keeps every copy of an element that satisfies the predicate and no copy of any other |
| Collections.FindOrFail | src/api/models.ts:125-132 | the collection failure is passed on; a missing element fails with the given message; otherwise the first match |
| Versions.GetVersionsStep | src/api/version.ts:8-27 | a fresh list is returned without fetching; a fetched list replaces it with the new timestamp; a failed fetch falls back to the stale list and fails only when there is none |
| Versions.FreshnessBoundary | src/api/version.ts:6-13 | a list is reused up to 5 minutes less a millisecond after it was stored and refetched at exactly 5 minutes |
| Versions.NeverFailsOnceFilled | src/api/version.ts:20-26 | once a list is cached, no sequence of calls and fetch outcomes empties it again |
| Versions.VersionListCache.constructor | src/api/version.ts:4-5 | nothing cached, timestamp 0 |
| Versions.VersionListCache.GetVersions | src/api/version.ts:8-27 | result and new cache state are GetVersionsStep's; a fetch is counted exactly when the list is stale |
| Versions.GetLatestVersion | src/api/version.ts:29-33 | the version string of the first entry flagged latest, none when no entry is, or the list failure |
| Versions.IsValidVersion | src/api/version.ts:35-38 | true exactly when some entry has that version string |
| Versions.VersionKeyFormat | src/api/version.ts:44-45 | the sort key of a formatted version is that version |
| Versions.NotBelowPreorder | src/api/version.ts:47-49 | the comparator is total and transitive |
| Versions.InsertSorted | src/api/version.ts:42-50 | inserting into a newest-first list keeps it newest-first |
| Versions.SortNewestFirst | src/api/version.ts:42-50 | the result is newest first and a permutation of the input |
| Versions.GetAvailableVersions | src/api/version.ts:40-51 | the version strings, newest first by major, minor and patch, as a permutation of the list's strings; a failure is passed on |
| Versions.AvailableVersionsMembers | src/api/version.ts:40-51 | a string is offered exactly when some entry has it |
| Semver.Eq | src/utils/semver.ts:7-9 | true exactly when the versions are equal |
| Semver.Gt | src/utils/semver.ts:11-15 | a is greater than b exactly when b is less than a |
| Semver.Lt | src/utils/semver.ts:17-21 | lexicographic on major, minor, patch; never holds of equal versions |
| Semver.Between | src/utils/semver.ts:23-25 | strictly between: equal to neither end, and the start is below the end |
| Semver.Trichotomy | src/utils/semver.ts:7-21 | exactly one of less, equal, greater holds |
| Semver.LtTransitive | src/utils/semver.ts:17-21 | less-than is transitive |
| Semver.BetweenEmpty | src/utils/semver.ts:23-25 | nothing lies between when the end is not above the start |
| Semver.Parse | src/utils/semver.ts:27-38 | succeeds exactly when the text (after an optional "v") starts with a digit; otherwise "Invalid semver version: " and the text |
| Semver.ParseGroupsFormat | src/utils/semver.ts:33-37 | the dotted groups of a formatted version parse back to it |
| Semver.ParseFormat | src/utils/semver.ts:27-38 | a formatted version, with or without "v" and any non-digit suffix, parses back to itself |
| Semver.ParseMajorOnly | src/utils/semver.ts:33-37 | a lone major number parses with minor and patch 0 |
| Semver.ParseMajorMinor | src/utils/semver.ts:27-38 | a major and minor number not followed by "." and a digit parse with patch 0 |
| Semver.GenerateMajorVersionPath | src/utils/semver.ts:40-50 | the parse failure of from, then of to, is passed on; otherwise the major numbers strictly after from's major, up to and including to's major, in order |
| Semver.MajorsAfter | src/utils/semver.ts:44-47 | the loop yields the numbers from lo + 1 up to and including hi, in order, and nothing when hi is not above lo |
| Project.ApplyUpdate | src/state/project.ts:22-26 | no project stays no project; otherwise each field given in the update replaces the current one and the others are kept |
| Project.EmptyUpdateKeeps | src/state/project.ts:22-26 | an update with no fields changes nothing |
| Project.UpdateIdempotent | src/state/project.ts:22-26 | applying the same update twice equals applying it once |
| Project.StateOf | src/state/project.ts:36-41 | the detected project keeps the config's path, version, framework and licence |
| Project.DetectStep | src/state/project.ts:28-51 | a failed or empty read changes nothing and returns nothing; a read project becomes current; it is returned exactly when saving succeeds too |
| Project.ProjectVersion | src/state/project.ts:53-59 | the project's version when it is set and non-empty, else the latest version when non-empty, else "34.1.0"; a failed latest-version lookup is passed on; never empty |
| Project.ProjectInfo | src/state/project.ts:77-83 | the no-project message, or the header, path, version, framework and enterprise lines joined by newlines; the last line ends in "Yes" exactly when the project is enterprise |
| Project.ProjectInfoLines | src/state/project.ts:77-83 | when path and version hold no newline, the summary splits back into exactly its five lines |
| Project.ProjectStore.constructor | src/state/project.ts:12 | no current project |
| Project.ProjectStore.SetCurrentProject | src/state/project.ts:18-20 | the project becomes current |
| Project.ProjectStore.UpdateCurrentProject | src/state/project.ts:22-26 | the current project becomes ApplyUpdate of the old one |
| Project.ProjectStore.ClearCurrentProject | src/state/project.ts:73-75 | no current project afterwards, and the info shows the no-project message |
| Project.ProjectStore.HasCurrentProject | src/state/project.ts:69-71 | true exactly when a project is current |
| Project.FrameworkOf | src/state/project.ts:61-63 | the project's framework, or React without a project; the resource handlers use it as their default framework |
| Project.ProjectStore.GetProjectFramework | src/state/project.ts:61-63 | the project's framework, or React without a project |
| Project.ProjectStore.GetProjectPath | src/state/project.ts:65-67 | the project's path exactly when there is a project |
| Project.ProjectStore.DetectAndSetProject | src/state/project.ts:28-51 | result and new current project are DetectStep's |
| VersionValidator.ConfigOf | src/utils/version-validator.ts:20-24 | the configuration carries the project's version, framework and licence |
| VersionValidator.ValidateStep | src/utils/version-validator.ts:17-44 | a current project is returned as is; otherwise detection runs; the error "No AG Grid version configured" with its suggestion is raised exactly when nothing is detected |
| VersionValidator.NothingDetected | src/utils/version-validator.ts:38-43 | a failed or empty read raises the not-configured error |
| VersionValidator.ValidateVersionConfig | src/utils/version-validator.ts:17-44 | result and new store state are ValidateStep's |
| VersionValidator.ValidateVersionConfigSafe | src/utils/version-validator.ts:46-52 | nothing exactly when validation raised, else the configuration |
| Workspaces.WorkspaceId | src/workspace/index.ts:62-64 | a non-empty identifier without "/": the last URI segment when it is non-empty |
| Workspaces.WorkspaceIdIsLastSegment | src/workspace/index.ts:62-64 | a URI ending in a non-empty segment is identified by that segment |
| Workspaces.WorkspaceIdOfTrailingSlash | src/workspace/index.ts:62-64 | a URI ending in "/" is identified as "workspace" |
| Workspaces.PromptsFor | src/workspace/index.ts:227-235 | quick start without a grid, the migration prompt on a grid that is not the latest, nothing on the latest |
| Workspaces.FeatureAvailable | src/workspace/index.ts:393-420 | available only if some module's name or module name contains the lowered feature |
| Workspaces.EnterpriseHasEveryMatchedFeature | src/workspace/index.ts:393-420 | for an enterprise workspace, available exactly when some module matches |
| Workspaces.CommunityFirstMatchDecides | src/workspace/index.ts:407-411 | for a community workspace, the first matching module decides: available exactly when it is not an enterprise module |
| Workspaces.FirstMatchInGroups | src/workspace/index.ts:397-412 | the first match found scanning groups, then children, is the first match of the flattened list |
| Workspaces.MigrationPathDropsInRange | src/workspace/index.ts:316-326 | at 32.0.0 with target 34.0.0 and migration 33.0.0, the path as written is empty while the corrected one is [33.0.0] |
| Workspaces.Workspace.constructor | src/workspace/index.ts:54-71 | the identifier is WorkspaceId of the URI and the prompts are PromptsFor the context |
| Workspaces.Workspace.IsInstalled | src/workspace/index.ts:73-75 | true exactly when there is a context |
| Workspaces.Workspace.IsEnterprise | src/workspace/index.ts:85-87 | the context's licence, false without a context |
| Workspaces.Workspace.FrameworkName | src/workspace/index.ts:77-79 | the context's framework, if any |
| Workspaces.Workspace.VersionId | src/workspace/index.ts:81-83 | the context version's id, if any |
| Workspaces.Workspace.DisplayName | src/workspace/index.ts:89-91 | a non-empty name; otherwise the last "/"-separated segment of the URI when it is not empty, else the whole URI |
| Workspaces.Workspace.EnsureValid | src/workspace/index.ts:102-108 | the context, or "Workspace … does not have valid AG-Grid context" |
| Workspaces.Workspace.FindPrompt | src/workspace/index.ts:114-125 | found exactly when the workspace offers the prompt, else MethodNotFound "Couldn't find prompt" |
| Workspaces.Workspace.ListTools | src/workspace/index.ts:141-143 | the tool list is empty |
| Workspaces.Workspace.HandleToolCall | src/workspace/index.ts:145-156 | every call fails with MethodNotFound "Couldn't find tool" |
| Workspaces.Workspace.FrameworkQuery | src/workspace/index.ts:237-246 | without a context, the invalid-context error; otherwise the endpoint call's outcome |
| Workspaces.Workspace.SearchDocs | src/workspace/index.ts:248-256 | the list failure, or the docs list filtered, in order and with repeats kept, to the docs whose lowered name or non-empty lowered description contains the lowered query |
| Workspaces.Workspace.SearchExamples | src/workspace/index.ts:289-300 | the list failure, or the example list filtered, in order and with repeats kept, to the examples whose lowered name or page name contains the lowered query |
| Workspaces.Workspace.GetDocsForLicense | src/workspace/index.ts:367-374 | all docs for an enterprise workspace; otherwise the docs list filtered, in order and with repeats kept, to the community docs |
| Workspaces.Workspace.ResourceNames | src/workspace/index.ts:176-224 | succeeds exactly when the docs, API docs and TypeScript examples all load; the names are the licensed docs' URLs, then the API docs', then the examples', in order |
| Workspaces.Workspace.FindResource | src/workspace/index.ts:131-139 | found exactly when the URI is a registered name, else MethodNotFound "Couldn't find resource" |
| Workspaces.Workspace.AdmittedDocIsFound | src/workspace/index.ts:176-191 | every doc the licence admits can be read as a resource |
| Workspaces.Workspace.ResourceDocsMatchLicense | src/workspace/index.ts:176-191 | the resource listing offers exactly the docs getDocsForLicense returns |
| Workspaces.Workspace.GetMigrationPathAsWritten | src/workspace/index.ts:316-326 | as written, the path is always empty |
| Workspaces.Workspace.GetMigrationPath | src/workspace/index.ts:316-326 | the migration list filtered, in order and with repeats kept, to the migrations strictly between the installed version and the target |
| Workspaces.Workspace.IsFeatureAvailable | src/workspace/index.ts:393-420 | true exactly when there is a context, the module list loads and FeatureAvailable holds for the workspace's licence |
| Context.Collected | src/context.ts:42-63 | exactly the grid packages whose installed manifest could be read, with the version each manifest declares |
| Context.Choose | src/context.ts:66-80 | React before Angular before Vue 3 before vanilla, with the version of the package that decided |
| Context.VuePackageIgnored | src/context.ts:20-27 | the legacy ag-grid-vue package never affects the choice |
| Context.ContextOf | src/context.ts:36-94 | no grid packages gives no context; a version parse failure is passed on; a framework parse failure gives no context; when a version was chosen, parses and the framework check accepts, always a context, holding the parsed version, the chosen framework and whether ag-grid-enterprise declares a version |
| Context.ReadWorkspaceContext | src/context.ts:36-94 | the loop over the package list computes ContextOf |
| Context.RootPath | src/context.ts:101 | a file URI loses its first six characters; any other URI is kept |
| Context.FileRootPath | src/context.ts:101 | "file://" followed by a path becomes "/" followed by that path |
| Context.AgMcpContext.constructor | src/context.ts:29-34 | no workspaces and no roots |
| Context.BuildWorkspace | src/context.ts:101-109 | a fresh workspace built for the root from its context, or the context read's failure |
| Context.AgMcpContext.LoadWorkspaces | src/context.ts:96-117 | one new workspace per root, in order, built from that root's context; a failure stops the loop and keeps the workspaces already built |
| Context.AgMcpContext.OnRootsChanged | src/context.ts:119-124 | the same roots array changes nothing; another array is stored and the workspaces are reloaded from it; a failed reload reports the context-read error of the first root it could not load |
| Context.AgMcpContext.WorkspaceById | src/context.ts:171-173 | the first workspace with that identifier, none when there is none |
| Context.AgMcpContext.ClearCache | src/context.ts:175-177 | no workspace is found by any identifier afterwards |
| Resources.Parts | src/handlers/resources.ts:64 | at least one part, no part contains "/", and the parts joined by "/" are the URI after the scheme |
| Resources.RouteOf | src/handlers/resources.ts:64-221 | the three list URIs, and "article"/"definition"/"example" with one more segment, each give their route; a segment that does not decode passes on the decoder's error in all three two-segment forms; a decoded example path without exactly two parts raises; every other shape is unsupported |
| Resources.ExtraSegmentsRejected | src/handlers/resources.ts:70-221 | a trailing "/" and the bare scheme are unsupported |
| Resources.MimeType | src/handlers/resources.ts:73-217 | lists are JSON, articles and definitions markdown, examples plain text |
| Resources.HandleResource | src/handlers/resources.ts:55-225 | a URI outside the scheme is rejected; a version failure is passed on; a route or content failure is wrapped as "Failed to fetch resource" |
| Resources.ListResources | src/handlers/resources.ts:20-53 | exactly the three list URIs, all JSON, for the project's version, or the version failure |
| Resources.ArticlesRoute | src/handlers/resources.ts:70 | the articles list URI routes to the article list |
| Resources.DefinitionsRoute | src/handlers/resources.ts:117 | the definitions list URI routes to the definition list |
| Resources.ExamplesRoute | src/handlers/resources.ts:161 | the examples list URI routes to the example list |
| Resources.LastTwo | src/handlers/resources.ts:180 | the last two path segments |
| Resources.ArticleLinkRoundTrip | src/handlers/resources.ts:85-104 | the link made for an article routes back to that article's name |
| Resources.DefinitionLinkRoundTrip | src/handlers/resources.ts:131-148 | the link made for a definition routes back to that definition's name |
| Resources.ExampleRoute | src/handlers/resources.ts:193-200 | an example link whose path decodes to two segments routes to that page and example |
| Resources.ExampleLinkRoundTrip | src/handlers/resources.ts:179-200 | the link made for an example routes back to its page and example names |
| Completions.CompleteLanguage | src/completions/language.ts:4-30 | the candidate languages, or javascript and typescript when none are exported, filtered in order and with repeats kept to those whose lowered form starts with the lowered value |
| Completions.EmptyLanguageQueryKeepsAll | src/completions/language.ts:8-10 | an empty value completes to every candidate |
| Completions.FallbackCompletion | src/completions/language.ts:17-28 | without candidates, "T" completes to typescript only |
| Completions.CompleteFramework | src/completions/framework.ts:5-15 | the framework names filtered, in order and with repeats kept, to those that start with the lowered value; a list failure is passed on |
| Completions.UpperCaseNameNeverMatches | src/completions/framework.ts:8 | only the query is lowered, so a name with an upper-case letter at position i (such as "React" at 0) never matches a value longer than i |
| Completions.EmptyFrameworkQueryKeepsAll | src/completions/framework.ts:8 | an empty value completes to every framework name |
| Completions.CompleteVersion | src/completions/version.ts:5-14 | the version ids filtered, in order and with repeats kept, to those that start with the value; a list failure is passed on |
| Completions.EmptyVersionQueryKeepsAll | src/completions/version.ts:7 | an empty value completes to every version id |
| Strings.SplitJoin | src/handlers/resources.ts:64 | splitting on a separator and joining again gives back the text |

## Left out

- The network, `response.json()` and the HTTP client in `src/api/fetch.ts` are a function from URL to response. Timeouts and transport errors are folded into the response value.
- The zod schemas in `src/api/schema.ts` are validator functions whose acceptance is not modelled. Only their results are.
- Cache.ApiCacheManager.FetchAndCache: the stored value is a sum with one case per schema. A value read back under another schema, which the source passes through an unchecked cast, fails with a shape error instead of flowing on.
- Concurrency is not modelled. Each `await` is atomic, so the interleavings that let two calls for one URL both fetch are not represented.
- Models.VersionEndpoint.Framework: the descriptor is settled when the endpoint is created. The source leaves the descriptor promise pending, so calls can interleave with it.
- Workspaces.Workspace.ResourceNames: `Promise.all` rejects with whichever query fails first in time. The model reports the first failure in argument order: docs, then API docs, then examples.
- The content API (`src/api/index.ts`: `version`, `latest`, `versions`, `parseVersion`, `parseFramework`) is not part of this model. Its results are parameters.
- `Date.now()` is the `now` parameter. The fetch of the version list is its settled outcome `fetched`.
- Versions.GetAvailableVersions: a part that is missing or not a plain digit string counts as 0. In the source, `Number` yields `NaN` or reads forms such as `0x1f`, `1e3` or padded text, and a `NaN` part makes the comparator call the two strings equal.
- Semver.Parse: numbers are unbounded naturals. The source's `parseInt` loses precision above 2^53.
- Project.ApplyUpdate: a field passed explicitly as `undefined` is treated as absent. The source's spread would copy it over.
- Reading and saving `.ag-mcp` project configuration (`src/config/index.ts`) and `process.cwd()` are parameters: the settled read and save outcomes.
- Lower-casing is ASCII only. Unicode case mapping is not modelled.
- Console logging and the MCP change notifications sent after loading workspaces are left out.
- The prompt handlers and templates (`src/prompts/`) are left out, as is their listing. Only the prompt names are modelled.
- `Workspace.listResources`, the resource handlers' HTTP fetch (`fetchUrl`) and the listing metadata are left out. Only the registered names and the lookup are modelled.
- `getPackages` (always empty), `getRelevantMigrations` (returns its input), `getChangelog`, `getModules`, `getAvailableFrameworks`, `getExamples` and `getMigration` only forward an endpoint call after the context check. They are covered by `Workspaces.Workspace.FrameworkQuery`.
- `AgMcpContext.listPrompts`, `listResources`, `listTools`, `handlePrompt`, `handleResource` and `handleTools` only concatenate, or forward to the first workspace. They are left out.
- The content of the resources (articles, definitions, examples), their JSON rendering, and `encodeURIComponent`/`decodeURIComponent` are parameters.
- The server wiring, the tool handlers and the completion dispatch (`src/server.ts`, `src/handlers/tools.ts`, `src/handlers/completions.ts`, `src/index.ts`) are not part of this model. Neither is `scripts/updateBetaVersion.ts`.
- The MCP `MethodNotFound` code is taken as -32601, from section 5.1 of the JSON-RPC 2.0 specification.

## Findings

| source | as written | input that shows it | evidently intended | confidence | as-written member | corrected member |
|---|---|---|---|---|---|---|
| src/workspace/index.ts:319-325 | the `filter` callback has a block body that evaluates `Semver.between` but returns nothing, so every migration is dropped and the path is always empty | a workspace on 32.0.0, target 34.0.0, one migration for 33.0.0: the path is [] | the migrations strictly between the installed version and the target | high; not executed | Workspaces.Workspace.GetMigrationPathAsWritten | Workspaces.Workspace.GetMigrationPath |

=== FILE: cache.dfy ===
/** The validated fetch memo table (src/api/cache.ts): a map from URL to the value
    its validator accepted. Only successful, validated results are stored; a stored
    value is reused only when it is truthy. */
module Cache {
  import opened Wrappers
  import opened Strings
  import opened Schema

  /** What the network collaborator answers for one request: a response with its
      status line and the outcome of decoding its body as JSON, or a transport failure. */
  datatype Response =
    | Response(ok: bool, status: nat, statusText: string, body: Result<Json, string>)
    | NetworkFailure(message: string)

  /** The network at the moment of a call. */
  type Network = string -> Response

  /** `if (this.cache[url])`: present and truthy. */
  predicate IsHit(table: map<string, Value>, url: string)
  {
    url in table && Truthy(table[url])
  }

  function FailedToFetch(url: string, cause: string): string
  {
    "Failed to fetch " + url + ": " + cause
  }

  function HttpError(status: nat, statusText: string): string
  {
    "HTTP " + NatToString(status) + ": " + statusText
  }

  /** The `try` block of `fetchAndCache`: request, status check, body decoding and
      validation, every failure rethrown with the URL in front of its cause. */
  function Attempt(url: string, validate: Validator, net: Network): (r: Result<Value, string>)
    ensures r.Err? ==> StartsWith(r.error, "Failed to fetch " + url + ": ")
    ensures r.Ok? <==>
      net(url).Response? && net(url).ok && net(url).body.Ok? && validate(net(url).body.value).Ok?
    ensures r.Ok? ==> r == validate(net(url).body.value)
    ensures net(url).Response? && !net(url).ok ==>
      r == Err(FailedToFetch(url, HttpError(net(url).status, net(url).statusText)))
  {
    match net(url)
    case NetworkFailure(m) => Err(FailedToFetch(url, m))
    case Response(ok, status, text, body) =>
      if !ok then Err(FailedToFetch(url, HttpError(status, text)))
      else
        match body
        case Err(m) => Err(FailedToFetch(url, m))
        case Ok(json) =>
          match validate(json)
          case Err(m) => Err(FailedToFetch(url, m))
          case Ok(v) => Ok(v)
  }

  /** One call of `fetchAndCache` on a table: its result, the new table, and whether
      a request went out. */
  datatype Step = Step(result: Result<Value, string>, table: map<string, Value>, fetched: bool)

  function FetchStep(table: map<string, Value>, url: string, validate: Validator, net: Network): (s: Step)
    ensures s.fetched <==> !IsHit(table, url)
    ensures !s.fetched ==> s.result == Ok(table[url]) && s.table == table
    ensures s.fetched ==> s.result == Attempt(url, validate, net)
    ensures s.result.Err? ==> s.table == table
    ensures s.result.Ok? ==> url in s.table && s.table[url] == s.result.value
    ensures s.table.Keys <= table.Keys + {url}
    ensures forall k :: k in table && k != url ==> k in s.table && s.table[k] == table[k]
  {
    if IsHit(table, url) then Step(Ok(table[url]), table, false)
    else
      var r := Attempt(url, validate, net);
      Step(r, if r.Ok? then table[url := r.value] else table, true)
  }

  /** A truthy value stored by one call is what every later call for that URL returns,
      whatever its validator and whatever the network does then, without a request. */
  lemma StoredValueIsReused(table: map<string, Value>, url: string, validate: Validator, net: Network,
                            validate': Validator, net': Network)
    requires FetchStep(table, url, validate, net).result.Ok?
    requires Truthy(FetchStep(table, url, validate, net).result.value)
    ensures var s := FetchStep(table, url, validate, net);
      FetchStep(s.table, url, validate', net') == Step(s.result, s.table, false)
  {
  }

  /** A failure is not remembered: the table is unchanged and the next call requests again. */
  lemma FailureIsRetried(table: map<string, Value>, url: string, validate: Validator, net: Network,
                         validate': Validator, net': Network)
    requires FetchStep(table, url, validate, net).result.Err?
    ensures var s := FetchStep(table, url, validate, net);
      s.table == table && s.fetched && FetchStep(s.table, url, validate', net').fetched
  {
  }

  /** A falsy validated value is stored (so the key is present), yet never counts as a hit. */
  lemma FalsyValueIsRefetched(table: map<string, Value>, url: string, validate: Validator, net: Network,
                              validate': Validator, net': Network)
    requires FetchStep(table, url, validate, net).result.Ok?
    requires !Truthy(FetchStep(table, url, validate, net).result.value)
    ensures var s := FetchStep(table, url, validate, net);
      url in s.table && FetchStep(s.table, url, validate', net').fetched
  {
  }

  /** `ApiCacheManager`. `fetchLog` records, for the proofs only, every URL a request was issued for. */
  class ApiCacheManager {
    var cache: map<string, Value>
    ghost var fetchLog: seq<string>

    constructor()
      ensures cache == map[] && fetchLog == []
    {
      cache := map[];
      fetchLog := [];
    }

    /** `fetchAndCache(url, schema)`. */
    method FetchAndCache(url: string, validate: Validator, net: Network) returns (r: Result<Value, string>)
      modifies this
      ensures r == FetchStep(old(cache), url, validate, net).result
      ensures cache == FetchStep(old(cache), url, validate, net).table
      ensures fetchLog == old(fetchLog) + if IsHit(old(cache), url) then [] else [url]
    {
      if url in cache && Truthy(cache[url]) {
        return Ok(cache[url]);
      }
      fetchLog := fetchLog + [url];
      var response := net(url);
      if response.NetworkFailure? {
        return Err(FailedToFetch(url, response.message));
      }
      if !response.ok {
        return Err(FailedToFetch(url, HttpError(response.status, response.statusText)));
      }
      if response.body.Err? {
        return Err(FailedToFetch(url, response.body.error));
      }
      var validated := validate(response.body.value);
      if validated.Err? {
        return Err(FailedToFetch(url, validated.error));
      }
      cache := cache[url := validated.value];
      return Ok(validated.value);
    }

    /** `getCached(url)`: the stored value, or `undefined`. */
    function GetCached(url: string): (r: Option<Value>)
      reads this
      ensures r.Some? <==> url in cache
      ensures r.Some? ==> r.value == cache[url]
    {
      if url in cache then Some(cache[url]) else None
    }

    /** `clearCache()`: drops every entry. */
    method ClearCache()
      modifies this
      ensures cache == map[] && fetchLog == old(fetchLog)
      ensures forall url :: GetCached(url).None? && !HasCached(url)
    {
      cache := map[];
    }

    /** `hasCached(url)`: key membership, whether or not the value is truthy. */
    function HasCached(url: string): (r: bool)
      reads this
      ensures r <==> GetCached(url).Some?
      ensures IsHit(cache, url) ==> r
    {
      url in cache
    }
  }
}

=== FILE: collections.dfy ===
/** The two sequence operations the source leans on everywhere:
    `Array.prototype.find` (first match or `undefined`) and
    `Array.prototype.filter` (order-preserving selection). */
module Collections {
  import opened Wrappers

  /** Index of the first element satisfying `p`, or `|xs|` when there is none. */
  function FindIndex<T>(xs: seq<T>, p: T -> bool): (k: nat)
    ensures k <= |xs|
    ensures k < |xs| ==> p(xs[k])
    ensures forall j :: 0 <= j < k ==> !p(xs[j])
    decreases |xs|
  {
    if xs == [] then 0
    else if p(xs[0]) then 0
    else 1 + FindIndex(xs[1..], p)
  }

  /** `xs.find(p)`: the first element satisfying `p`. */
  function Find<T>(xs: seq<T>, p: T -> bool): (r: Option<T>)
    ensures r.None? <==> forall i :: 0 <= i < |xs| ==> !p(xs[i])
    ensures r.Some? ==>
      exists i :: 0 <= i < |xs| && xs[i] == r.value && p(xs[i]) &&
        forall j :: 0 <= j < i ==> !p(xs[j])
  {
    var k := FindIndex(xs, p);
    if k < |xs| then Some(xs[k]) else None
  }

  /** `xs.some(p)`. */
  predicate Exists<T>(xs: seq<T>, p: T -> bool)
  {
    exists i :: 0 <= i < |xs| && p(xs[i])
  }

  /** `xs.filter(p)`: keeps the elements satisfying `p`, in their order. */
  function Filter<T>(xs: seq<T>, p: T -> bool): (r: seq<T>)
    ensures |r| <= |xs|
    ensures forall i :: 0 <= i < |r| ==> p(r[i]) && r[i] in xs
    ensures forall i :: 0 <= i < |xs| && p(xs[i]) ==> xs[i] in r
    ensures multiset(r) <= multiset(xs)
    decreases |xs|
  {
    if xs == [] then []
    else
      var rest := Filter(xs[1..], p);
      assert xs == [xs[0]] + xs[1..];
      if p(xs[0]) then [xs[0]] + rest else rest
  }

  /** Filtering a sequence with a first element. */
  lemma FilterCons<T>(x: T, t: seq<T>, p: T -> bool)
    ensures Filter([x] + t, p) == (if p(x) then [x] else []) + Filter(t, p)
  {
    assert ([x] + t)[1..] == t;
  }

  lemma ConcatAssoc<T>(x: seq<T>, y: seq<T>, z: seq<T>)
    ensures x + (y + z) == (x + y) + z
  {
  }

  /** Filtering commutes with concatenation: the kept elements of `a` all come
      before the kept elements of `b`, so the filter preserves order. */
  lemma {:induction false} FilterAppend<T>(a: seq<T>, b: seq<T>, p: T -> bool)
    ensures Filter(a + b, p) == Filter(a, p) + Filter(b, p)
    decreases |a|
  {
    if a != [] {
      var t := a[1..];
      var head := if p(a[0]) then [a[0]] else [];
      assert Filter(a, p) == head + Filter(t, p) by {
        assert a == [a[0]] + t;
        FilterCons(a[0], t, p);
      }
      assert Filter(a + b, p) == head + Filter(t + b, p) by {
        assert a == [a[0]] + t;
        ConcatAssoc([a[0]], t, b);
        FilterCons(a[0], t + b, p);
      }
      assert Filter(t + b, p) == Filter(t, p) + Filter(b, p) by { FilterAppend(t, b, p); }
      ConcatAssoc(head, Filter(t, p), Filter(b, p));
    } else {
      assert a + b == b;
    }
  }

  /** The indices `i` from `from` on with `p(xs[i])`, in increasing order. */
  ghost function MatchingIndices<T>(xs: seq<T>, p: T -> bool, from: nat): (idx: seq<nat>)
    requires from <= |xs|
    ensures forall k :: 0 <= k < |idx| ==> from <= idx[k] < |xs|
    decreases |xs| - from
  {
    if from == |xs| then []
    else
      var rest := MatchingIndices(xs, p, from + 1);
      if p(xs[from]) then [from] + rest else rest
  }

  /** Every matching index is a position satisfying `p`. */
  lemma {:induction false} MatchingIndicesMatch<T>(xs: seq<T>, p: T -> bool, from: nat)
    requires from <= |xs|
    ensures forall k :: 0 <= k < |MatchingIndices(xs, p, from)| ==> p(xs[MatchingIndices(xs, p, from)[k]])
    decreases |xs| - from
  {
    if from < |xs| {
      MatchingIndicesMatch(xs, p, from + 1);
      var rest := MatchingIndices(xs, p, from + 1);
      if p(xs[from]) {
        var idx := [from] + rest;
        assert MatchingIndices(xs, p, from) == idx;
        forall k | 0 <= k < |idx|
          ensures p(xs[idx[k]])
        {
          if k > 0 {
            assert idx[k] == rest[k - 1];
            assert p(xs[rest[k - 1]]);
          }
        }
      } else {
        assert MatchingIndices(xs, p, from) == rest;
      }
    }
  }

  /** The matching indices increase strictly and leave out no matching position. */
  lemma {:induction false} MatchingIndicesComplete<T>(xs: seq<T>, p: T -> bool, from: nat)
    requires from <= |xs|
    ensures forall k, l :: 0 <= k < l < |MatchingIndices(xs, p, from)| ==>
      MatchingIndices(xs, p, from)[k] < MatchingIndices(xs, p, from)[l]
    ensures forall i :: from <= i < |xs| && p(xs[i]) ==> i in MatchingIndices(xs, p, from)
    decreases |xs| - from
  {
    if from < |xs| {
      MatchingIndicesComplete(xs, p, from + 1);
      var rest := MatchingIndices(xs, p, from + 1);
      if p(xs[from]) {
        var idx := [from] + rest;
        assert MatchingIndices(xs, p, from) == idx;
        forall k, l | 0 <= k < l < |idx|
          ensures idx[k] < idx[l]
        {
          assert idx[l] == rest[l - 1];
          if k > 0 {
            assert idx[k] == rest[k - 1];
          }
        }
        forall i | from <= i < |xs| && p(xs[i])
          ensures i in idx
        {
          if i == from {
            assert idx[0] == i;
          } else {
            assert i in rest;
          }
        }
      } else {
        assert MatchingIndices(xs, p, from) == rest;
        forall i | from <= i < |xs| && p(xs[i])
          ensures i in rest
        {
          assert i != from;
        }
      }
    }
  }

  /** `r` lists the elements of `xs` at the positions `idx`, one for one. */
  ghost predicate Picks<T>(r: seq<T>, xs: seq<T>, idx: seq<nat>)
  {
    |r| == |idx| && forall k :: 0 <= k < |idx| ==> idx[k] < |xs| && r[k] == xs[idx[k]]
  }

  /** Picking one more element in front. */
  lemma PicksCons<T>(r: seq<T>, xs: seq<T>, idx: seq<nat>, i: nat)
    requires Picks(r, xs, idx) && i < |xs|
    ensures Picks([xs[i]] + r, xs, [i] + idx)
  {
    forall k | 0 <= k < |idx| + 1
      ensures ([i] + idx)[k] < |xs| && ([xs[i]] + r)[k] == xs[([i] + idx)[k]]
    {
      if k > 0 {
        assert ([i] + idx)[k] == idx[k - 1];
        assert ([xs[i]] + r)[k] == r[k - 1];
      }
    }
  }

  /** Filtering the suffix from `from` picks the elements at `MatchingIndices`,
      one per index and in index order. */
  lemma {:induction false} FilterSuffixPicks<T>(xs: seq<T>, p: T -> bool, from: nat)
    requires from <= |xs|
    ensures Picks(Filter(xs[from..], p), xs, MatchingIndices(xs, p, from))
    decreases |xs| - from
  {
    if from < |xs| {
      var t := xs[from..];
      assert t[0] == xs[from];
      assert t[1..] == xs[from + 1..];
      FilterSuffixPicks(xs, p, from + 1);
      var rest := Filter(xs[from + 1..], p);
      var idx := MatchingIndices(xs, p, from + 1);
      if p(xs[from]) {
        assert Filter(t, p) == [xs[from]] + rest;
        assert MatchingIndices(xs, p, from) == [from] + idx;
        PicksCons(rest, xs, idx, from);
      } else {
        assert Filter(t, p) == rest;
        assert MatchingIndices(xs, p, from) == idx;
      }
    }
  }

  /** The filter keeps order and multiplicity: its `k`-th element is the element
      of `xs` at the `k`-th index satisfying `p`, where those indices increase
      strictly and include every position satisfying `p`. */
  lemma FilterKeepsOrder<T>(xs: seq<T>, p: T -> bool)
    ensures var idx := MatchingIndices(xs, p, 0);
      |Filter(xs, p)| == |idx| &&
      (forall k :: 0 <= k < |idx| ==> Filter(xs, p)[k] == xs[idx[k]] && p(xs[idx[k]])) &&
      (forall k, l :: 0 <= k < l < |idx| ==> idx[k] < idx[l]) &&
      (forall i :: 0 <= i < |xs| && p(xs[i]) ==> i in idx)
  {
    FilterSuffixPicks(xs, p, 0);
    MatchingIndicesMatch(xs, p, 0);
    MatchingIndicesComplete(xs, p, 0);
    assert xs[0..] == xs;
  }

  /** The filter keeps every copy of an element satisfying `p` and no copy of the others. */
  lemma {:induction false} FilterCount<T>(xs: seq<T>, p: T -> bool, x: T)
    ensures multiset(Filter(xs, p))[x] == if p(x) then multiset(xs)[x] else 0
    decreases |xs|
  {
    if xs != [] {
      var t := xs[1..];
      assert xs == [xs[0]] + t;
      FilterCount(t, p, x);
      if p(xs[0]) {
        assert Filter(xs, p) == [xs[0]] + Filter(t, p);
      } else {
        assert Filter(xs, p) == Filter(t, p);
      }
      assert multiset(xs) == multiset([xs[0]]) + multiset(t);
    }
  }

  /** A filter that keeps everything returns its input unchanged. */
  lemma {:induction false} FilterAll<T>(xs: seq<T>, p: T -> bool)
    requires forall i :: 0 <= i < |xs| ==> p(xs[i])
    ensures Filter(xs, p) == xs
    decreases |xs|
  {
    if xs != [] {
      FilterAll(xs[1..], p);
    }
  }

  /** A first-match search over a collection that may itself have failed:
      the collection's failure is passed on, and a missing element fails with `notFound`. */
  function FindOrFail<T>(xs: Result<seq<T>, string>, p: T -> bool, notFound: string): (r: Result<T, string>)
    ensures xs.Err? ==> r == Err(xs.error)
    ensures xs.Ok? && (forall i :: 0 <= i < |xs.value| ==> !p(xs.value[i])) ==> r == Err(notFound)
    ensures r.Ok? ==>
      xs.Ok? &&
      exists i :: 0 <= i < |xs.value| && xs.value[i] == r.value && p(r.value) &&
        forall j :: 0 <= j < i ==> !p(xs.value[j])
    ensures xs.Ok? && (exists i :: 0 <= i < |xs.value| && p(xs.value[i])) ==> r.Ok?
  {
    match xs
    case Err(e) => Err(e)
    case Ok(items) =>
      match Find(items, p)
      case Some(x) => Ok(x)
      case None => Err(notFound)
  }
}

=== FILE: completions.dfy ===
/** Argument completion (src/completions/): prefix filters over the languages, the
    framework names of a version and the version ids. */
module Completions {
  import opened Wrappers
  import opened Collections
  import opened Strings
  import opened Schema

  /** An MCP completion: the values, their count, and whether more exist. */
  datatype Completion = Completion(values: seq<string>, total: nat, hasMore: bool)

  function Complete(values: seq<string>): (c: Completion)
    ensures c.values == values && c.total == |values| && !c.hasMore
  {
    Completion(values, |values|, false)
  }

  /** The candidate starts with the query, both lowered. */
  predicate LanguageMatches(candidate: string, value: string)
  {
    StartsWith(Lower(candidate), Lower(value))
  }

  function LanguageQuery(value: string): string -> bool { (l: string) => LanguageMatches(l, value) }

  const FallbackLanguages: seq<string> := ["javascript", "typescript"]

  /** `completeLanguage(value)`: the candidate languages, or the fallback list when
      the candidate list cannot be read, kept when they start with the value
      case-insensitively. */
  function CompleteLanguage(candidates: Option<seq<string>>, value: string): (c: Completion)
    ensures c.total == |c.values| && !c.hasMore
    ensures var pool := candidates.GetOr(FallbackLanguages);
      (forall i :: 0 <= i < |c.values| ==> LanguageMatches(c.values[i], value) && c.values[i] in pool) &&
      (forall i :: 0 <= i < |pool| && LanguageMatches(pool[i], value) ==> pool[i] in c.values) &&
      c.values == Filter(pool, LanguageQuery(value))
  {
    var pool := candidates.GetOr(FallbackLanguages);
    assert forall i :: 0 <= i < |pool| && LanguageMatches(pool[i], value) ==> LanguageQuery(value)(pool[i]);
    Complete(Filter(pool, LanguageQuery(value)))
  }

  /** The empty string completes to every candidate, in order. */
  lemma {:induction false} EmptyLanguageQueryKeepsAll(candidates: seq<string>)
    ensures CompleteLanguage(Some(candidates), "").values == candidates
  {
    forall i | 0 <= i < |candidates|
      ensures LanguageQuery("")(candidates[i])
    {
      assert Lower(candidates[i])[..0] == Lower("");
    }
    FilterAll(candidates, LanguageQuery(""));
  }

  /** Without a candidate list, "t" completes to "typescript" alone. */
  lemma FallbackCompletion()
    ensures CompleteLanguage(None, "T").values == ["typescript"]
  {
    var pool := FallbackLanguages;
    assert !LanguageQuery("T")(pool[0]) by {
      assert Lower(pool[0])[..1] == "j";
      assert Lower("T") == "t";
    }
    assert LanguageQuery("T")(pool[1]) by {
      assert Lower(pool[1])[..1] == "t";
      assert Lower("T") == "t";
    }
    assert pool[1..][1..] == [];
    assert Filter(pool, LanguageQuery("T")) == Filter(pool[1..], LanguageQuery("T"));
  }

  /** A framework name starts with the lowered query; the name itself is not lowered. */
  predicate FrameworkMatches(name: string, value: string)
  {
    StartsWith(name, Lower(value))
  }

  function FrameworkQuery(value: string): string -> bool { (f: string) => FrameworkMatches(f, value) }

  function FrameworkNames(fs: seq<Framework>): (names: seq<string>)
    ensures |names| == |fs| && forall i :: 0 <= i < |fs| ==> names[i] == fs[i].framework
  {
    seq(|fs|, i requires 0 <= i < |fs| => fs[i].framework)
  }

  /** `completeFramework(version, value)` on what `version.frameworks()` settles to;
      a rejection is passed on. */
  function CompleteFramework(frameworks: Result<Value, string>, value: string): (r: Result<Completion, string>)
    ensures AsFrameworks(frameworks).Err? ==> r == Err(AsFrameworks(frameworks).error)
    ensures AsFrameworks(frameworks).Ok? ==> r.Ok? && r.value.total == |r.value.values| && !r.value.hasMore
    ensures r.Ok? ==>
      var names := FrameworkNames(AsFrameworks(frameworks).value);
      (forall i :: 0 <= i < |r.value.values| ==> FrameworkMatches(r.value.values[i], value) && r.value.values[i] in names) &&
      (forall i :: 0 <= i < |names| && FrameworkMatches(names[i], value) ==> names[i] in r.value.values) &&
      r.value.values == Filter(names, FrameworkQuery(value))
  {
    match AsFrameworks(frameworks)
    case Err(e) => Err(e)
    case Ok(fs) =>
      var names := FrameworkNames(fs);
      assert forall i :: 0 <= i < |names| && FrameworkMatches(names[i], value) ==> FrameworkQuery(value)(names[i]);
      Ok(Complete(Filter(names, FrameworkQuery(value))))
  }

  /** Only the query is lowered: a framework name with an upper-case letter at
      position `i` never completes a query longer than `i` (so "React" completes
      no non-empty query). */
  lemma UpperCaseNameNeverMatches(name: string, value: string, i: nat)
    requires i < |name| && 'A' <= name[i] <= 'Z'
    requires i < |value|
    ensures !FrameworkMatches(name, value)
  {
    assert Lower(value)[i] == LowerChar(value[i]);
  }

  /** A version id starts with the query, compared exactly. */
  predicate VersionMatches(id: string, value: string)
  {
    StartsWith(id, value)
  }

  function VersionQuery(value: string): string -> bool { (v: string) => VersionMatches(v, value) }

  function VersionIds(vs: seq<Version>): (ids: seq<string>)
    ensures |ids| == |vs| && forall i :: 0 <= i < |vs| ==> ids[i] == vs[i].id
  {
    seq(|vs|, i requires 0 <= i < |vs| => vs[i].id)
  }

  /** `completeVersion(api, value)` on what `api.versions()` settles to. */
  function CompleteVersion(versions: Result<seq<Version>, string>, value: string): (r: Result<Completion, string>)
    ensures versions.Err? ==> r == Err(versions.error)
    ensures versions.Ok? ==> r.Ok? && r.value.total == |r.value.values| && !r.value.hasMore
    ensures r.Ok? ==>
      var ids := VersionIds(versions.value);
      (forall i :: 0 <= i < |r.value.values| ==> StartsWith(r.value.values[i], value) && r.value.values[i] in ids) &&
      (forall i :: 0 <= i < |ids| && StartsWith(ids[i], value) ==> ids[i] in r.value.values) &&
      r.value.values == Filter(ids, VersionQuery(value))
  {
    match versions
    case Err(e) => Err(e)
    case Ok(vs) =>
      var ids := VersionIds(vs);
      assert forall i :: 0 <= i < |ids| && StartsWith(ids[i], value) ==> VersionQuery(value)(ids[i]);
      Ok(Complete(Filter(ids, VersionQuery(value))))
  }

  /** The empty query completes to every id, in order. */
  lemma {:induction false} EmptyVersionQueryKeepsAll(vs: seq<Version>)
    ensures CompleteVersion(Ok(vs), "").value.values == VersionIds(vs)
  {
    var ids := VersionIds(vs);
    forall i | 0 <= i < |ids|
      ensures VersionQuery("")(ids[i])
    {
      assert ids[i][..0] == "";
    }
    FilterAll(ids, VersionQuery(""));
  }

  /** The empty query completes to every framework name, in order. */
  lemma {:induction false} EmptyFrameworkQueryKeepsAll(fs: seq<Framework>)
    ensures CompleteFramework(Ok(FrameworkListValue(fs)), "").value.values == FrameworkNames(fs)
  {
    var names := FrameworkNames(fs);
    forall i | 0 <= i < |names|
      ensures FrameworkQuery("")(names[i])
    {
      assert Lower("") == "";
      assert names[i][..0] == "";
    }
    FilterAll(names, FrameworkQuery(""));
  }
}

=== FILE: context.dfy ===
/** The server context (src/context.ts): one workspace per client root, each with
    the grid context read from the packages installed under that root. The file
    system is a parameter mapping a root path to the versions its readable package
    manifests declare; the content API's version and framework resolution are
    parameters too. */
module Context {
  import opened Wrappers
  import opened Strings
  import opened Schema
  import opened Workspaces

  const AgGridPackages: seq<string> := [
    "ag-grid-community", "ag-grid-enterprise", "ag-grid-react",
    "ag-grid-angular", "ag-grid-vue3", "ag-grid-vue"]

  /** A client root: a URI and an optional display name. */
  datatype Root = Root(uri: string, name: Option<string>)

  /** What reading a root needs from outside: for a root path, the `version` of every
      package whose manifest could be read and parsed; the content API's version
      parser; and its framework check, which either accepts or rejects. */
  datatype ContextEnv = ContextEnv(
    files: string -> map<string, string>,
    parseVersion: string -> Result<Version, string>,
    parseFramework: (string, string) -> Result<(), string>)

  /** The versions collected from the grid packages that could be read. */
  function Collected(files: map<string, string>): (packages: map<string, string>)
    ensures forall n :: n in packages <==> n in files && n in AgGridPackages
    ensures forall n :: n in packages ==> packages[n] == files[n]
  {
    map n | n in files && n in AgGridPackages :: files[n]
  }

  /** `packages[name]` is truthy: recorded and non-empty. */
  predicate Has(packages: map<string, string>, name: string)
  {
    name in packages && packages[name] != ""
  }

  /** The framework and the version the priority chain settles on; an empty version
      means none was chosen. */
  datatype Choice = Choice(framework: string, versionId: string)

  function Choose(packages: map<string, string>): (c: Choice)
    ensures Has(packages, "ag-grid-react") ==> c == Choice("react", packages["ag-grid-react"])
    ensures !Has(packages, "ag-grid-react") && Has(packages, "ag-grid-angular") ==>
      c == Choice("angular", packages["ag-grid-angular"])
    ensures !Has(packages, "ag-grid-react") && !Has(packages, "ag-grid-angular") && Has(packages, "ag-grid-vue3") ==>
      c == Choice("vue", packages["ag-grid-vue3"])
    ensures !Has(packages, "ag-grid-react") && !Has(packages, "ag-grid-angular") && !Has(packages, "ag-grid-vue3") ==>
      c.framework == "javascript" &&
      c.versionId == (if Has(packages, "ag-grid-community") then packages["ag-grid-community"] else "")
  {
    if Has(packages, "ag-grid-react") then Choice("react", packages["ag-grid-react"])
    else if Has(packages, "ag-grid-angular") then Choice("angular", packages["ag-grid-angular"])
    else if Has(packages, "ag-grid-vue3") then Choice("vue", packages["ag-grid-vue3"])
    else if Has(packages, "ag-grid-community") then Choice("javascript", packages["ag-grid-community"])
    else Choice("javascript", "")
  }

  /** The "ag-grid-vue" package never influences the choice. */
  lemma VuePackageIgnored(packages: map<string, string>)
    ensures Choose(packages) == Choose(packages - {"ag-grid-vue"})
  {
    var other := packages - {"ag-grid-vue"};
    assert forall n :: n != "ag-grid-vue" ==> (Has(packages, n) <==> Has(other, n));
    assert forall n :: n != "ag-grid-vue" && n in packages ==> packages[n] == other[n];
  }

  /** `readWorkspaceContext` on the collected versions: no context when no version
      was chosen or the framework check rejects; a failed version lookup rejects. */
  function ContextOf(files: map<string, string>, env: ContextEnv): (r: Result<Option<WorkspaceContext>, string>)
    ensures var c := Choose(Collected(files));
      (c.versionId == "" ==> r == Ok(None)) &&
      (c.versionId != "" && env.parseVersion(c.versionId).Err? ==> r == Err(env.parseVersion(c.versionId).error)) &&
      (c.versionId != "" && env.parseVersion(c.versionId).Ok? && env.parseFramework(c.versionId, c.framework).Err? ==>
        r == Ok(None))
    ensures var c := Choose(Collected(files));
      c.versionId != "" && env.parseVersion(c.versionId).Ok? && env.parseFramework(c.versionId, c.framework).Ok? ==>
        r.Ok? && r.value.Some?
    ensures r.Ok? && r.value.Some? ==>
      var c := Choose(Collected(files));
      c.versionId != "" && r.value.value.version == env.parseVersion(c.versionId).value &&
      r.value.value.framework == c.framework &&
      (r.value.value.isEnterprise <==> "ag-grid-enterprise" in files && files["ag-grid-enterprise"] != "")
  {
    var packages := Collected(files);
    var isEnterprise := Has(packages, "ag-grid-enterprise");
    var c := Choose(packages);
    if c.versionId == "" then Ok(None)
    else match env.parseVersion(c.versionId)
      case Err(e) => Err(e)
      case Ok(version) =>
        if env.parseFramework(c.versionId, c.framework).Err? then Ok(None)
        else Ok(Some(WorkspaceContext(version, c.framework, isEnterprise)))
  }

  /** `readWorkspaceContext(root)`: the package loop, then the choice. */
  method ReadWorkspaceContext(rootPath: string, env: ContextEnv) returns (r: Result<Option<WorkspaceContext>, string>)
    ensures r == ContextOf(env.files(rootPath), env)
  {
    var files := env.files(rootPath);
    var packages: map<string, string> := map[];
    var i := 0;
    while i < |AgGridPackages|
      invariant 0 <= i <= |AgGridPackages|
      invariant forall n :: n in packages <==> n in files && n in AgGridPackages[..i]
      invariant forall n :: n in packages ==> packages[n] == files[n]
    {
      var name := AgGridPackages[i];
      assert AgGridPackages[..i + 1] == AgGridPackages[..i] + [name];
      if name in files {
        packages := packages[name := files[name]];
      }
      i := i + 1;
    }
    assert AgGridPackages[..i] == AgGridPackages;
    assert packages == Collected(files);
    var isEnterprise := "ag-grid-enterprise" in packages && packages["ag-grid-enterprise"] != "";
    var framework := "javascript";
    var versionId := "";
    if "ag-grid-react" in packages && packages["ag-grid-react"] != "" {
      framework, versionId := "react", packages["ag-grid-react"];
    } else if "ag-grid-angular" in packages && packages["ag-grid-angular"] != "" {
      framework, versionId := "angular", packages["ag-grid-angular"];
    } else if "ag-grid-vue3" in packages && packages["ag-grid-vue3"] != "" {
      framework, versionId := "vue", packages["ag-grid-vue3"];
    } else if "ag-grid-community" in packages && packages["ag-grid-community"] != "" {
      versionId := packages["ag-grid-community"];
    }
    if versionId == "" {
      return Ok(None);
    }
    var version := env.parseVersion(versionId);
    if version.Err? {
      return Err(version.error);
    }
    if env.parseFramework(versionId, framework).Err? {
      return Ok(None);
    }
    r := Ok(Some(WorkspaceContext(version.value, framework, isEnterprise)));
  }

  /** A `file://` root URI loses its first six characters; any other URI is used as it is. */
  function RootPath(uri: string): (path: string)
    ensures StartsWith(uri, "file://") ==> path == uri[6..]
    ensures !StartsWith(uri, "file://") ==> path == uri
  {
    if StartsWith(uri, "file://") then uri[6..] else uri
  }

  /** The slice keeps the third slash: `file:///home` reads `//home`. */
  lemma FileRootPath(rest: string)
    ensures RootPath("file://" + rest) == "/" + rest
  {
    assert ("file://" + rest)[..|"file://"|] == "file://";
    assert ("file://" + rest)[6..] == "/" + rest;
  }

  /** The workspace `loadWorkspaces` builds for a root. */
  ghost predicate BuiltFor(w: Workspace, root: Root, env: ContextEnv)
  {
    w.uri == root.uri && w.name == root.name && w.id == WorkspaceId(root.uri) &&
    ContextOf(env.files(RootPath(root.uri)), env) == Ok(w.context) &&
    w.prompts == PromptsFor(w.context)
  }

  /** Each workspace of `ws` was built for the root at its position. */
  ghost predicate AllBuilt(ws: seq<Workspace>, rs: seq<Root>, env: ContextEnv)
  {
    |ws| <= |rs| && forall k :: 0 <= k < |ws| ==> BuiltFor(ws[k], rs[k], env)
  }

  lemma AllBuiltSnoc(ws: seq<Workspace>, rs: seq<Root>, env: ContextEnv, w: Workspace)
    requires AllBuilt(ws, rs, env) && |ws| < |rs| && BuiltFor(w, rs[|ws|], env)
    ensures AllBuilt(ws + [w], rs, env)
  {
    forall k | 0 <= k < |ws| + 1
      ensures BuiltFor((ws + [w])[k], rs[k], env)
    {
      if k < |ws| {
        assert (ws + [w])[k] == ws[k];
      }
    }
  }

  /** One iteration of `loadWorkspaces`: the root's path, its grid context and the
      workspace built from them; a failed context read rejects. */
  method BuildWorkspace(root: Root, env: ContextEnv) returns (r: Result<Workspace, string>)
    ensures r.Ok? ==> fresh(r.value) && BuiltFor(r.value, root, env)
    ensures r.Err? ==> ContextOf(env.files(RootPath(root.uri)), env) == Err(r.error)
  {
    var context := ReadWorkspaceContext(RootPath(root.uri), env);
    if context.Err? {
      return Err(context.error);
    }
    var w := new Workspace(root.name, root.uri, context.value);
    r := Ok(w);
  }

  class AgMcpContext {
    var workspaces: seq<Workspace>
    var roots: array<Root>

    constructor()
      ensures workspaces == [] && fresh(roots) && roots.Length == 0
    {
      workspaces := [];
      roots := new Root[0];
    }

    /** `loadWorkspaces(roots)`: resets the list and appends one workspace per root,
        in order; a failed version lookup stops the loop and rejects, keeping the
        workspaces built so far. */
    method LoadWorkspaces(rs: array<Root>, env: ContextEnv) returns (r: Result<(), string>)
      modifies this
      ensures roots == old(roots)
      ensures r.Ok? ==> |workspaces| == rs.Length
      ensures r.Err? ==>
        |workspaces| < rs.Length && ContextOf(env.files(RootPath(rs[|workspaces|].uri)), env) == Err(r.error)
      ensures |workspaces| <= rs.Length
      ensures forall i :: 0 <= i < |workspaces| ==> fresh(workspaces[i]) && BuiltFor(workspaces[i], rs[i], env)
    {
      workspaces := [];
      var i := 0;
      while i < rs.Length
        invariant 0 <= i <= rs.Length && |workspaces| == i && roots == old(roots)
        invariant forall k :: 0 <= k < i ==> fresh(workspaces[k])
        invariant AllBuilt(workspaces, rs[..], env)
      {
        var w := BuildWorkspace(rs[i], env);
        if w.Err? {
          return Err(w.error);
        }
        AllBuiltSnoc(workspaces, rs[..], env, w.value);
        workspaces := workspaces + [w.value];
        i := i + 1;
      }
      r := Ok(());
    }

    /** `onRootsChanged(roots)`: reloads only for a roots array other than the stored one. */
    method OnRootsChanged(rs: array<Root>, env: ContextEnv) returns (r: Result<(), string>)
      modifies this
      ensures rs == old(roots) ==> r == Ok(()) && workspaces == old(workspaces) && roots == old(roots)
      ensures rs != old(roots) ==> roots == rs && |workspaces| <= rs.Length
      ensures rs != old(roots) && r.Ok? ==> |workspaces| == rs.Length
      ensures rs != old(roots) && r.Err? ==>
        |workspaces| < rs.Length && ContextOf(env.files(RootPath(rs[|workspaces|].uri)), env) == Err(r.error)
      ensures rs != old(roots) ==>
        forall i :: 0 <= i < |workspaces| ==> fresh(workspaces[i]) && BuiltFor(workspaces[i], rs[i], env)
    {
      if rs == roots {
        return Ok(());
      }
      roots := rs;
      r := LoadWorkspaces(rs, env);
    }

    /** `workspace(id)`: the first workspace with that id. */
    function WorkspaceById(id: string): (r: Option<Workspace>)
      reads this
      ensures r.None? <==> forall i :: 0 <= i < |workspaces| ==> workspaces[i].id != id
      ensures r.Some? ==>
        exists i :: 0 <= i < |workspaces| && workspaces[i] == r.value && r.value.id == id &&
          forall j :: 0 <= j < i ==> workspaces[j].id != id
    {
      FirstWithId(workspaces, id)
    }

    /** `clearCache()`. */
    method ClearCache()
      modifies this
      ensures workspaces == [] && roots == old(roots)
      ensures forall id :: WorkspaceById(id).None?
    {
      workspaces := [];
    }
  }

  function FirstWithId(ws: seq<Workspace>, id: string): (r: Option<Workspace>)
    ensures r.None? <==> forall i :: 0 <= i < |ws| ==> ws[i].id != id
    ensures r.Some? ==>
      exists i :: 0 <= i < |ws| && ws[i] == r.value && r.value.id == id &&
        forall j :: 0 <= j < i ==> ws[j].id != id
  {
    if ws == [] then None
    else if ws[0].id == id then Some(ws[0])
    else
      var r := FirstWithId(ws[1..], id);
      assert r.Some? ==>
        exists i :: 0 <= i < |ws[1..]| && ws[1..][i] == r.value && r.value.id == id &&
          forall j :: 0 <= j < i ==> ws[1..][j].id != id;
      r
  }
}

=== FILE: models.dfy ===
/** The endpoint graph (src/api/models.ts): a version endpoint memoises its index
    document and creates at most one framework endpoint per framework name; a
    framework endpoint resolves its lists through the shared fetch cache.
    Every `await` is one atomic step, so a promise is modelled by the `Result`
    it settles to. */
module Models {
  import opened Wrappers
  import opened Collections
  import opened Schema
  import opened Cache

  /** What lies outside the process during one call: the network and the schemas. */
  datatype Env = Env(net: Network, schemas: Schemas)

  /** The part of the shared fetch cache the proofs follow: its table and its request log. */
  datatype CacheState = CacheState(table: map<string, Value>, log: seq<string>)

  /** `fetchAndCache` on an already-settled URL promise: a failed URL is passed on
      without a request. */
  function FetchFrom(url: Result<string, string>, validate: Validator, c: CacheState, net: Network)
    : (Result<Value, string>, CacheState)
  {
    match url
    case Err(e) => (Err(e), c)
    case Ok(u) =>
      var s := FetchStep(c.table, u, validate, net);
      (s.result, CacheState(s.table, c.log + if s.fetched then [u] else []))
  }

  // ---- VersionEndpoint ----

  /** `index.find((l) => l.id === id)`. */
  function LinkHasId(id: string): Link -> bool { (l: Link) => l.id == id }

  function FindLink(index: seq<Link>, id: string): (r: Option<Link>)
    ensures r.None? <==> forall i :: 0 <= i < |index| ==> index[i].id != id
    ensures r.Some? ==>
      r.value.id == id &&
      exists i :: 0 <= i < |index| && index[i] == r.value && forall j :: 0 <= j < i ==> index[j].id != id
  {
    Find(index, LinkHasId(id))
  }

  /** A version endpoint's state as the proofs see it: the memoised index promise
      and the shared cache. */
  datatype Snapshot = Snapshot(indexData: Option<Result<Value, string>>, cache: CacheState)

  /** `getIndexData`: the first call settles the index promise (the version promise,
      then the index document at the version's URL) and keeps it, failed or not;
      later calls return the kept outcome without touching the cache. */
  function IndexPhase(version: Result<Version, string>, s: Snapshot, env: Env): (p: (Result<Value, string>, Snapshot))
    ensures p.1.indexData == Some(p.0)
    ensures s.indexData.Some? ==> p == (s.indexData.value, s)
    ensures s.indexData.None? && version.Err? ==> p.0 == Err(version.error) && p.1.cache == s.cache
    ensures |s.cache.log| <= |p.1.cache.log| <= |s.cache.log| + 1
    ensures p.1.cache.log[..|s.cache.log|] == s.cache.log
    ensures |p.1.cache.log| > |s.cache.log| ==>
      s.indexData.None? && version.Ok? && p.1.cache.log[|s.cache.log|] == version.value.url
    ensures s.indexData.None? && version.Ok? ==>
      var st := FetchStep(s.cache.table, version.value.url, IndexSchema(env.schemas), env.net);
      p.0 == st.result && p.1.cache.table == st.table &&
      p.1.cache.log == s.cache.log + if st.fetched then [version.value.url] else []
  {
    if s.indexData.Some? then (s.indexData.value, s)
    else
      var (r, c) := FetchFrom(MapVersionUrl(version), IndexSchema(env.schemas), s.cache, env.net);
      (r, Snapshot(Some(r), c))
  }

  function MapVersionUrl(version: Result<Version, string>): (r: Result<string, string>)
    ensures version.Err? ==> r == Err(version.error)
    ensures version.Ok? ==> r == Ok(version.value.url)
  {
    match version
    case Err(e) => Err(e)
    case Ok(v) => Ok(v.url)
  }

  /** The index lookup on a settled index promise. */
  function LinkIn(index: Result<Value, string>, id: string): Result<Option<Link>, string>
  {
    match AsLinks(index)
    case Err(e) => Err(e)
    case Ok(links) => Ok(FindLink(links, id))
  }

  function NotInIndex(endpoint: string): string
  {
    endpoint + " endpoint not found in index"
  }

  /** `frameworks`/`changelog`/`modules`/`types`: resolve the link named `id`; fail
      with "<endpoint> endpoint not found in index" when it is absent, without any
      request beyond the index; otherwise fetch the link's URL. */
  function LinkedPhase(version: Result<Version, string>, s: Snapshot, id: string, endpoint: string,
                       validate: Validator, env: Env): (p: (Result<Value, string>, Snapshot))
    ensures var (_, s1) := IndexPhase(version, s, env);
      p.1.indexData == s1.indexData && s1.cache.log <= p.1.cache.log
    ensures var (idx, s1) := IndexPhase(version, s, env);
      LinkIn(idx, id) == Ok(None) ==> p == (Err(NotInIndex(endpoint)), s1)
    ensures var (idx, s1) := IndexPhase(version, s, env);
      LinkIn(idx, id).Err? ==> p == (Err(LinkIn(idx, id).error), s1)
    ensures var (idx, s1) := IndexPhase(version, s, env);
      LinkIn(idx, id).Ok? && LinkIn(idx, id).value.Some? ==>
        var link := LinkIn(idx, id).value.value;
        var st := FetchStep(s1.cache.table, link.url, validate, env.net);
        link.id == id && p.0 == st.result && p.1.cache.table == st.table &&
        p.1.cache.log == s1.cache.log + if st.fetched then [link.url] else []
  {
    var (idx, s1) := IndexPhase(version, s, env);
    match LinkIn(idx, id)
    case Err(e) => (Err(e), s1)
    case Ok(None) => (Err(NotInIndex(endpoint)), s1)
    case Ok(Some(link)) =>
      var (r, c) := FetchFrom(Ok(link.url), validate, s1.cache, env.net);
      (r, Snapshot(s1.indexData, c))
  }

  const InvalidFramework := "Invalid framework for version"

  function FrameworkNamed(name: string): Framework -> bool { (f: Framework) => f.framework == name }

  /** The promise a new framework endpoint is bound to: the first framework entry
      whose `framework` is `name`, or the rejection "Invalid framework for version". */
  function Descriptor(frameworks: Result<Value, string>, name: string): (r: Result<Framework, string>)
    ensures r.Ok? ==> r.value.framework == name
    ensures AsFrameworks(frameworks).Err? ==> r == Err(AsFrameworks(frameworks).error)
    ensures AsFrameworks(frameworks).Ok? ==>
      var fs := AsFrameworks(frameworks).value;
      (r.Ok? <==> exists i :: 0 <= i < |fs| && fs[i].framework == name) &&
      (r.Err? ==> r.error == InvalidFramework) &&
      (r.Ok? ==> exists i :: 0 <= i < |fs| && fs[i] == r.value && forall j :: 0 <= j < i ==> fs[j].framework != name)
  {
    FindOrFail(AsFrameworks(frameworks), FrameworkNamed(name), InvalidFramework)
  }

  class VersionEndpoint {
    const cache: ApiCacheManager
    /** The settled promise of this endpoint's version descriptor. */
    const version: Result<Version, string>
    var frameworkEndpoints: map<string, FrameworkEndpoint>
    var indexData: Option<Result<Value, string>>

    /** Every child endpoint shares this endpoint's fetch cache. */
    ghost predicate Valid()
      reads this
    {
      forall n :: n in frameworkEndpoints ==> frameworkEndpoints[n].cache == cache
    }

    ghost function Snap(): Snapshot
      reads this, cache
    {
      Snapshot(indexData, CacheState(cache.cache, cache.fetchLog))
    }

    constructor(cache: ApiCacheManager, version: Result<Version, string>)
      ensures this.cache == cache && this.version == version
      ensures frameworkEndpoints == map[] && indexData == None
      ensures Valid()
    {
      this.cache := cache;
      this.version := version;
      frameworkEndpoints := map[];
      indexData := None;
    }

    function GetVersion(): Result<Version, string>
    {
      version
    }

    /** `getIndexData()`. */
    method GetIndexData(env: Env) returns (r: Result<Value, string>)
      modifies this, cache
      ensures (r, Snap()) == IndexPhase(version, old(Snap()), env)
      ensures frameworkEndpoints == old(frameworkEndpoints)
    {
      if indexData.Some? {
        return indexData.value;
      }
      if version.Err? {
        r := Err(version.error);
      } else {
        r := cache.FetchAndCache(version.value.url, IndexSchema(env.schemas), env.net);
      }
      indexData := Some(r);
    }

    /** `getIndexLink(id)`: the first link with that id, or `undefined`. */
    method GetIndexLink(id: string, env: Env) returns (r: Result<Option<Link>, string>)
      modifies this, cache
      ensures r == LinkIn(IndexPhase(version, old(Snap()), env).0, id)
      ensures Snap() == IndexPhase(version, old(Snap()), env).1
      ensures frameworkEndpoints == old(frameworkEndpoints)
    {
      var index := GetIndexData(env);
      r := LinkIn(index, id);
    }

    method Linked(id: string, endpoint: string, validate: Validator, env: Env) returns (r: Result<Value, string>)
      modifies this, cache
      ensures (r, Snap()) == LinkedPhase(version, old(Snap()), id, endpoint, validate, env)
      ensures frameworkEndpoints == old(frameworkEndpoints)
    {
      var link := GetIndexLink(id, env);
      if link.Err? {
        return Err(link.error);
      }
      if link.value.None? {
        return Err(NotInIndex(endpoint));
      }
      r := cache.FetchAndCache(link.value.value.url, validate, env.net);
    }

    /** `frameworks()`. */
    method Frameworks(env: Env) returns (r: Result<Value, string>)
      modifies this, cache
      ensures (r, Snap()) == LinkedPhase(version, old(Snap()), "frameworks", "Frameworks", FrameworkListSchema(env.schemas), env)
      ensures frameworkEndpoints == old(frameworkEndpoints)
    {
      r := Linked("frameworks", "Frameworks", FrameworkListSchema(env.schemas), env);
    }

    /** `changelog()`. */
    method Changelog(env: Env) returns (r: Result<Value, string>)
      modifies this, cache
      ensures (r, Snap()) == LinkedPhase(version, old(Snap()), "changelog", "Changelog", ChangeLogSchema(env.schemas), env)
      ensures frameworkEndpoints == old(frameworkEndpoints)
    {
      r := Linked("changelog", "Changelog", ChangeLogSchema(env.schemas), env);
    }

    /** `modules()`. */
    method Modules(env: Env) returns (r: Result<Value, string>)
      modifies this, cache
      ensures (r, Snap()) == LinkedPhase(version, old(Snap()), "modules", "Modules", ModuleListSchema(env.schemas), env)
      ensures frameworkEndpoints == old(frameworkEndpoints)
    {
      r := Linked("modules", "Modules", ModuleListSchema(env.schemas), env);
    }

    /** `types()`: validated with the schema that accepts anything. */
    method Types(env: Env) returns (r: Result<Value, string>)
      modifies this, cache
      ensures (r, Snap()) == LinkedPhase(version, old(Snap()), "types", "Types", UnknownSchema(), env)
      ensures frameworkEndpoints == old(frameworkEndpoints)
    {
      r := Linked("types", "Types", UnknownSchema(), env);
    }

    /** `framework(name)`: the endpoint already created for `name`, with nothing else
        happening; otherwise a new endpoint bound to the settled descriptor promise,
        recorded under `name`. */
    method Framework(name: string, env: Env) returns (fe: FrameworkEndpoint)
      requires Valid()
      modifies this, cache
      ensures Valid() && fe.cache == cache
      ensures name in old(frameworkEndpoints) ==>
        fe == old(frameworkEndpoints[name]) && frameworkEndpoints == old(frameworkEndpoints) &&
        Snap() == old(Snap())
      ensures name !in old(frameworkEndpoints) ==>
        fresh(fe) && frameworkEndpoints == old(frameworkEndpoints)[name := fe] &&
        var p := LinkedPhase(version, old(Snap()), "frameworks", "Frameworks", FrameworkListSchema(env.schemas), env);
        fe.descriptor == Descriptor(p.0, name) && Snap() == p.1
    {
      if name in frameworkEndpoints {
        return frameworkEndpoints[name];
      }
      var frameworks := Frameworks(env);
      fe := new FrameworkEndpoint(cache, Descriptor(frameworks, name));
      frameworkEndpoints := frameworkEndpoints[name := fe];
    }
  }

  /** Asking twice for the same framework yields the same endpoint object. */
  method FrameworkTwice(ve: VersionEndpoint, name: string, env: Env, env': Env)
    returns (first: FrameworkEndpoint, second: FrameworkEndpoint)
    requires ve.Valid()
    modifies ve, ve.cache
    ensures first == second && name in ve.frameworkEndpoints && ve.frameworkEndpoints[name] == first
  {
    first := ve.Framework(name, env);
    second := ve.Framework(name, env');
  }

  // ---- FrameworkEndpoint ----

  function DocsUrl(d: Result<Framework, string>): Result<string, string>
  {
    match d
    case Err(e) => Err(e)
    case Ok(f) => Ok(f.docs)
  }

  function ApiUrl(d: Result<Framework, string>): Result<string, string>
  {
    match d
    case Err(e) => Err(e)
    case Ok(f) => Ok(f.api)
  }

  function MigrationsUrl(d: Result<Framework, string>): Result<string, string>
  {
    match d
    case Err(e) => Err(e)
    case Ok(f) => Ok(f.migrations)
  }

  function NoExamples(kind: string, framework: string): string
  {
    "No examples available for type '" + kind + "' in framework '" + framework + "'"
  }

  /** `framework.examples[type]`, failing when the language has no (or an empty) URL. */
  function ExamplesUrl(d: Result<Framework, string>, kind: string): (r: Result<string, string>)
    ensures d.Err? ==> r == Err(d.error)
    ensures d.Ok? && (kind !in d.value.examples || d.value.examples[kind] == "") ==>
      r == Err(NoExamples(kind, d.value.framework))
    ensures d.Ok? && kind in d.value.examples && d.value.examples[kind] != "" ==> r == Ok(d.value.examples[kind])
    ensures r.Ok? ==> d.Ok? && kind in d.value.examples && r.value == d.value.examples[kind] && r.value != ""
  {
    match d
    case Err(e) => Err(e)
    case Ok(f) =>
      if kind in f.examples && f.examples[kind] != "" then Ok(f.examples[kind])
      else Err(NoExamples(kind, f.framework))
  }

  function DocHasId(id: string): Doc -> bool { (d: Doc) => d.id == id }
  function MigrationHasVersion(id: string): Migration -> bool { (m: Migration) => m.migrationVersion == id }
  function ExampleNamed(id: string): Example -> bool { (e: Example) => e.exampleName == id }

  function DocNotFound(id: string): string { "Doc with id '" + id + "' not found" }
  function MigrationNotFound(id: string): string { "Migration with id '" + id + "' not found" }
  function ExampleNotFound(id: string, kind: string): string
  {
    "Example with id '" + id + "' not found for type '" + kind + "'"
  }

  class FrameworkEndpoint {
    const cache: ApiCacheManager
    /** The settled promise of this endpoint's framework descriptor. */
    const descriptor: Result<Framework, string>

    constructor(cache: ApiCacheManager, descriptor: Result<Framework, string>)
      ensures this.cache == cache && this.descriptor == descriptor
    {
      this.cache := cache;
      this.descriptor := descriptor;
    }

    ghost function State(): CacheState
      reads cache
    {
      CacheState(cache.cache, cache.fetchLog)
    }

    function GetFramework(): Result<Framework, string>
    {
      descriptor
    }

    /** `docs()`: the doc list at the descriptor's `docs` URL. */
    method Docs(env: Env) returns (r: Result<Value, string>)
      modifies cache
      ensures (r, State()) == FetchFrom(DocsUrl(descriptor), DocListSchema(env.schemas), old(State()), env.net)
    {
      if descriptor.Err? {
        return Err(descriptor.error);
      }
      r := cache.FetchAndCache(descriptor.value.docs, DocListSchema(env.schemas), env.net);
    }

    /** `doc(id)`: the first doc with that id, or "Doc with id '<id>' not found". */
    method Doc(id: string, env: Env) returns (r: Result<Doc, string>)
      modifies cache
      ensures var (docs, c) := FetchFrom(DocsUrl(descriptor), DocListSchema(env.schemas), old(State()), env.net);
        r == FindOrFail(AsDocs(docs), DocHasId(id), DocNotFound(id)) && State() == c
    {
      var docs := Docs(env);
      r := FindOrFail(AsDocs(docs), DocHasId(id), DocNotFound(id));
    }

    /** `api()`: the doc list at the descriptor's `api` URL. */
    method Api(env: Env) returns (r: Result<Value, string>)
      modifies cache
      ensures (r, State()) == FetchFrom(ApiUrl(descriptor), DocListSchema(env.schemas), old(State()), env.net)
    {
      if descriptor.Err? {
        return Err(descriptor.error);
      }
      r := cache.FetchAndCache(descriptor.value.api, DocListSchema(env.schemas), env.net);
    }

    /** `migrations()`. */
    method Migrations(env: Env) returns (r: Result<Value, string>)
      modifies cache
      ensures (r, State()) == FetchFrom(MigrationsUrl(descriptor), MigrationListSchema(env.schemas), old(State()), env.net)
    {
      if descriptor.Err? {
        return Err(descriptor.error);
      }
      r := cache.FetchAndCache(descriptor.value.migrations, MigrationListSchema(env.schemas), env.net);
    }

    /** `migration(id)`: the first entry whose `migrationVersion` is `id`. */
    method Migration(id: string, env: Env) returns (r: Result<Migration, string>)
      modifies cache
      ensures var (ms, c) := FetchFrom(MigrationsUrl(descriptor), MigrationListSchema(env.schemas), old(State()), env.net);
        r == FindOrFail(AsMigrations(ms), MigrationHasVersion(id), MigrationNotFound(id)) && State() == c
    {
      var ms := Migrations(env);
      r := FindOrFail(AsMigrations(ms), MigrationHasVersion(id), MigrationNotFound(id));
    }

    /** `examples(type)`: fails without a request when the language has no URL. */
    method Examples(kind: string, env: Env) returns (r: Result<Value, string>)
      modifies cache
      ensures (r, State()) == FetchFrom(ExamplesUrl(descriptor, kind), ExampleListSchema(env.schemas), old(State()), env.net)
      ensures ExamplesUrl(descriptor, kind).Err? ==> State() == old(State())
    {
      var url := ExamplesUrl(descriptor, kind);
      if url.Err? {
        return Err(url.error);
      }
      r := cache.FetchAndCache(url.value, ExampleListSchema(env.schemas), env.net);
    }

    /** `example(type, id)`: the first example whose `exampleName` is `id`. */
    method Example(kind: string, id: string, env: Env) returns (r: Result<Example, string>)
      modifies cache
      ensures var (es, c) := FetchFrom(ExamplesUrl(descriptor, kind), ExampleListSchema(env.schemas), old(State()), env.net);
        r == FindOrFail(AsExamples(es), ExampleNamed(id), ExampleNotFound(id, kind)) && State() == c
    {
      var es := Examples(kind, env);
      r := FindOrFail(AsExamples(es), ExampleNamed(id), ExampleNotFound(id, kind));
    }
  }
}

=== FILE: project.dfy ===
/** The current-project state (src/state/project.ts): one optional project record,
    replaced, patched and cleared by the setters, read by the getters. */
module Project {
  import opened Wrappers
  import opened Strings

  /** The framework names of the grid. */
  datatype GridFramework = Vanilla | React | Angular | Vue
  {
    function Name(): (s: string)
      ensures s != ""
    {
      match this
      case Vanilla => "vanilla"
      case React => "react"
      case Angular => "angular"
      case Vue => "vue"
    }
  }

  /** `ProjectState`; `enterprise` is optional. */
  datatype ProjectState = ProjectState(path: string, version: string, framework: GridFramework,
                                       enterprise: Option<bool>)

  /** A project record as the configuration store reads it; `enterprise` is required. */
  datatype ConfigProject = ConfigProject(path: string, version: string, framework: GridFramework,
                                         enterprise: bool)

  /** `Partial<ProjectState>`: the fields an update carries. */
  datatype ProjectUpdate = ProjectUpdate(path: Option<string>, version: Option<string>,
                                         framework: Option<GridFramework>, enterprise: Option<Option<bool>>)

  /** `{ ...current, ...updates }`, applied only when a project is set. */
  function ApplyUpdate(current: Option<ProjectState>, u: ProjectUpdate): (r: Option<ProjectState>)
    ensures r.Some? <==> current.Some?
    ensures r.Some? ==>
      r.value.path == u.path.GetOr(current.value.path) &&
      r.value.version == u.version.GetOr(current.value.version) &&
      r.value.framework == u.framework.GetOr(current.value.framework) &&
      r.value.enterprise == u.enterprise.GetOr(current.value.enterprise)
  {
    match current
    case None => None
    case Some(p) =>
      Some(ProjectState(u.path.GetOr(p.path), u.version.GetOr(p.version),
                        u.framework.GetOr(p.framework), u.enterprise.GetOr(p.enterprise)))
  }

  /** An update that carries no field changes nothing. */
  lemma EmptyUpdateKeeps(current: Option<ProjectState>)
    ensures ApplyUpdate(current, ProjectUpdate(None, None, None, None)) == current
  {
  }

  /** Applying the same update twice is applying it once. */
  lemma UpdateIdempotent(current: Option<ProjectState>, u: ProjectUpdate)
    ensures ApplyUpdate(ApplyUpdate(current, u), u) == ApplyUpdate(current, u)
  {
  }

  /** The state `detectAndSetProject` records for a project it read. */
  function StateOf(p: ConfigProject): (s: ProjectState)
    ensures s.path == p.path && s.version == p.version && s.framework == p.framework
    ensures s.enterprise == Some(p.enterprise)
  {
    ProjectState(p.path, p.version, p.framework, Some(p.enterprise))
  }

  /** `detectAndSetProject`: what it returns and the current project afterwards, given
      what reading and saving the project settle to. Any failure is caught and
      gives `null`; a failed save still leaves the project set. */
  function DetectStep(current: Option<ProjectState>, read: Result<Option<ConfigProject>, string>,
                      save: Result<(), string>): (p: (Option<ProjectState>, Option<ProjectState>))
    ensures read.Err? || read == Ok(None) ==> p == (None, current)
    ensures read.Ok? && read.value.Some? ==> p.1 == Some(StateOf(read.value.value))
    ensures p.0.Some? <==> read.Ok? && read.value.Some? && save.Ok?
    ensures p.0.Some? ==> p.1 == p.0
  {
    match read
    case Err(_) => (None, current)
    case Ok(None) => (None, current)
    case Ok(Some(project)) =>
      var state := StateOf(project);
      if save.Err? then (None, Some(state)) else (Some(state), Some(state))
  }

  const DefaultVersion := "34.1.0"

  /** `getProjectVersion`: the current version when it is non-empty, else the latest
      version when that is non-empty, else "34.1.0"; a failed lookup of the latest
      version rejects. */
  function ProjectVersion(current: Option<ProjectState>, latest: Result<Option<string>, string>): (r: Result<string, string>)
    ensures current.Some? && current.value.version != "" ==> r == Ok(current.value.version)
    ensures !(current.Some? && current.value.version != "") ==>
      (latest.Err? ==> r == Err(latest.error)) &&
      (latest.Ok? && latest.value.Some? && latest.value.value != "" ==> r == Ok(latest.value.value)) &&
      (latest.Ok? && (latest.value.None? || latest.value.value == "") ==> r == Ok(DefaultVersion))
    ensures r.Ok? ==> r.value != ""
  {
    if current.Some? && current.value.version != "" then Ok(current.value.version)
    else match latest
      case Err(e) => Err(e)
      case Ok(v) => if v.Some? && v.value != "" then Ok(v.value) else Ok(DefaultVersion)
  }

  /** `getProjectFramework()` on a project state: the current framework, or
      React without a project. */
  function FrameworkOf(current: Option<ProjectState>): (f: GridFramework)
    ensures current.Some? ==> f == current.value.framework
    ensures current.None? ==> f == React
  {
    if current.Some? then current.value.framework else React
  }

  const NoProject := "No AG Grid project detected"
  const Heading := "**AG Grid Project:**"
  const PathKey := "- Path: "
  const VersionKey := "- Version: "
  const FrameworkKey := "- Framework: "
  const EnterpriseKey := "- Enterprise: "

  function Flag(enterprise: Option<bool>): string
  {
    if enterprise == Some(true) then "Yes" else "No"
  }

  /** The five lines of a project summary. */
  function InfoLines(p: ProjectState): (lines: seq<string>)
    ensures |lines| == 5
  {
    [Heading, PathKey + p.path, VersionKey + p.version, FrameworkKey + p.framework.Name(),
     EnterpriseKey + Flag(p.enterprise)]
  }

  /** `getProjectInfo`'s text: the summary lines joined by newlines. */
  function ProjectInfo(current: Option<ProjectState>): (r: string)
    ensures current.None? ==> r == NoProject
    ensures current.Some? ==> r == Join(InfoLines(current.value), '\n')
    ensures current.Some? ==> StartsWith(r, Heading + "\n" + PathKey + current.value.path + "\n" + VersionKey)
    ensures current.Some? ==> (EndsWith(r, "Yes") <==> current.value.enterprise == Some(true))
  {
    match current
    case None => NoProject
    case Some(p) =>
      var prefix := Heading + "\n" + PathKey + p.path + "\n" + VersionKey;
      var body := prefix + p.version + "\n" + FrameworkKey + p.framework.Name() + "\n" + EnterpriseKey;
      var flag := Flag(p.enterprise);
      var text := body + flag;
      assert text[..|prefix|] == prefix;
      assert text[|text| - 1] == flag[|flag| - 1];
      assert text[|text| - |flag|..] == flag;
      InfoIsJoinedLines(p, text);
      text
  }

  lemma InfoIsJoinedLines(p: ProjectState, text: string)
    requires text == Heading + "\n" + PathKey + p.path + "\n" + VersionKey + p.version + "\n" + FrameworkKey
      + p.framework.Name() + "\n" + EnterpriseKey + Flag(p.enterprise)
    ensures text == Join(InfoLines(p), '\n')
  {
    var l := InfoLines(p);
    var y1 := Heading + "\n" + l[1];
    var y2 := y1 + "\n" + l[2];
    var y3 := y2 + "\n" + l[3];
    assert Heading + "\n" + PathKey + p.path == y1 by { Regroup(Heading + "\n", PathKey, p.path); }
    assert y1 + "\n" + VersionKey + p.version == y2 by { Regroup(y1 + "\n", VersionKey, p.version); }
    assert y2 + "\n" + FrameworkKey + p.framework.Name() == y3 by {
      Regroup(y2 + "\n", FrameworkKey, p.framework.Name());
    }
    assert text == y3 + "\n" + l[4] by { Regroup(y3 + "\n", EnterpriseKey, Flag(p.enterprise)); }
    assert Join(l, '\n') == l[0] + "\n" + (l[1] + "\n" + (l[2] + "\n" + (l[3] + "\n" + l[4]))) by {
      JoinFive(l);
    }
    NewlineAssoc(y2, l[3], l[4]);
    NewlineAssoc(y1, l[2], l[3] + "\n" + l[4]);
    NewlineAssoc(l[0], l[1], l[2] + "\n" + (l[3] + "\n" + l[4]));
  }

  lemma Regroup(a: string, b: string, c: string)
    ensures a + b + c == a + (b + c)
  {
  }

  /** Joining the five summary lines, unfolded. */
  lemma JoinFive(l: seq<string>)
    requires |l| == 5
    ensures Join(l, '\n') == l[0] + "\n" + (l[1] + "\n" + (l[2] + "\n" + (l[3] + "\n" + l[4])))
  {
    JoinCons(l[3], [l[4]], '\n');
    JoinCons(l[2], l[3..], '\n');
    JoinCons(l[1], l[2..], '\n');
    JoinCons(l[0], l[1..], '\n');
    assert [l[3]] + [l[4]] == l[3..];
    assert [l[2]] + l[3..] == l[2..];
    assert [l[1]] + l[2..] == l[1..];
    assert [l[0]] + l[1..] == l;
  }

  /** Regrouping newline-separated text. */
  lemma NewlineAssoc(a: string, b: string, c: string)
    ensures a + "\n" + b + "\n" + c == a + "\n" + (b + "\n" + c)
  {
  }

  /** Joining a part in front of at least one more. */
  lemma JoinCons(x: string, rest: seq<string>, sep: char)
    requires |rest| >= 1
    ensures Join([x] + rest, sep) == x + [sep] + Join(rest, sep)
  {
    assert ([x] + rest)[1..] == rest;
  }

  /** A summary of a project whose path and version hold no newline reads back,
      line by line, as the header, path, version, framework and licence lines. */
  lemma ProjectInfoLines(p: ProjectState)
    requires '\n' !in p.path && '\n' !in p.version
    ensures Split(ProjectInfo(Some(p)), '\n') == InfoLines(p)
  {
    var l := InfoLines(p);
    assert '\n' !in l[0];
    assert '\n' !in l[1] by { NoNewlineJoined(PathKey, p.path); }
    assert '\n' !in l[2] by { NoNewlineJoined(VersionKey, p.version); }
    assert '\n' !in l[3] by { NoNewlineJoined(FrameworkKey, p.framework.Name()); }
    assert '\n' !in l[4] by { NoNewlineJoined(EnterpriseKey, Flag(p.enterprise)); }
    SplitJoin(l, '\n');
  }

  lemma NoNewlineJoined(a: string, b: string)
    requires '\n' !in a && '\n' !in b
    ensures '\n' !in a + b
  {
  }

  predicate EndsWith(s: string, suffix: string)
  {
    |suffix| <= |s| && s[|s| - |suffix|..] == suffix
  }

  /** The module-level `currentProject` variable. */
  class ProjectStore {
    var current: Option<ProjectState>

    constructor()
      ensures current == None
    {
      current := None;
    }

    /** `getCurrentProject()`. */
    function GetCurrentProject(): Option<ProjectState>
      reads this
    {
      current
    }

    /** `setCurrentProject(p)`. */
    method SetCurrentProject(p: Option<ProjectState>)
      modifies this
      ensures GetCurrentProject() == p && HasCurrentProject() == p.Some?
    {
      current := p;
    }

    /** `updateCurrentProject(updates)`. */
    method UpdateCurrentProject(u: ProjectUpdate)
      modifies this
      ensures current == ApplyUpdate(old(current), u)
    {
      if current.Some? {
        var p := current.value;
        current := Some(ProjectState(u.path.GetOr(p.path), u.version.GetOr(p.version),
                                     u.framework.GetOr(p.framework), u.enterprise.GetOr(p.enterprise)));
      }
    }

    /** `clearCurrentProject()`. */
    method ClearCurrentProject()
      modifies this
      ensures GetCurrentProject() == None && !HasCurrentProject()
      ensures ProjectInfo(current) == NoProject
    {
      current := None;
    }

    /** `hasCurrentProject()`. */
    function HasCurrentProject(): (r: bool)
      reads this
      ensures r <==> GetCurrentProject().Some?
    {
      current != None
    }

    /** `getProjectFramework()`: the current framework, or React without a project. */
    function GetProjectFramework(): (r: GridFramework)
      reads this
      ensures current.Some? ==> r == current.value.framework
      ensures current.None? ==> r == React
    {
      FrameworkOf(current)
    }

    /** `getProjectPath()`. */
    function GetProjectPath(): (r: Option<string>)
      reads this
      ensures r.Some? <==> current.Some?
      ensures r.Some? ==> r.value == current.value.path
    {
      if current.Some? then Some(current.value.path) else None
    }

    /** `getProjectVersion()`, given what `getLatestVersion()` settles to. */
    function GetProjectVersion(latest: Result<Option<string>, string>): Result<string, string>
      reads this
    {
      ProjectVersion(current, latest)
    }

    /** `getProjectInfo()`. */
    function GetProjectInfo(): string
      reads this
    {
      ProjectInfo(current)
    }

    /** `detectAndSetProject(path)`, where `read` and `save` are what `readProject`
        and `saveProject` settle to. */
    method DetectAndSetProject(read: Result<Option<ConfigProject>, string>, save: Result<(), string>)
      returns (r: Option<ProjectState>)
      modifies this
      ensures (r, current) == DetectStep(old(current), read, save)
    {
      if read.Err? || read.value.None? {
        return None;
      }
      var state := StateOf(read.value.value);
      SetCurrentProject(Some(state));
      if save.Err? {
        return None;
      }
      r := Some(state);
    }
  }
}

=== FILE: resources.dfy ===
/** The `ag-mcp://` resource handler (src/handlers/resources.ts): the three list
    resources it advertises and the routing of a resource URI to one of six
    shapes. The content requests behind each route are represented by their
    outcome; `encodeURIComponent`/`decodeURIComponent` are parameters. */
module Resources {
  import opened Wrappers
  import opened Strings
  import opened Project

  const Scheme := "ag-mcp://"

  /** The six accepted URI shapes, with their decoded segments. */
  datatype Route =
    | Articles
    | Article(slug: string)
    | Definitions
    | Definition(name: string)
    | Examples
    | Example(articleSlug: string, exampleSlug: string)

  /** A percent-decoder: the decoded text, or the rendered error it throws. */
  type Decoder = string -> Result<string, string>

  /** The segments after the scheme (`uri.replace(scheme, "").split("/")`). */
  function Parts(uri: string): (parts: seq<string>)
    requires StartsWith(uri, Scheme)
    ensures |parts| >= 1 && Join(parts, '/') == uri[|Scheme|..]
    ensures forall i :: 0 <= i < |parts| ==> '/' !in parts[i]
  {
    Split(uri[|Scheme|..], '/')
  }

  /** One of the six shapes the handler serves. */
  predicate KnownShape(parts: seq<string>)
  {
    (|parts| == 1 && parts[0] in ["articles", "definitions", "examples"]) ||
    (|parts| == 2 && parts[0] in ["article", "definition", "example"])
  }

  /** `${error}` for an `Error` the handler raises itself. */
  function Raised(message: string): string
  {
    "Error: " + message
  }

  function Unsupported(uri: string): string
  {
    Raised("Unsupported resource URI format: " + uri)
  }

  /** The route a URI's segments select, or the rendered error raised inside the
      handler's `try` block. */
  function RouteOf(uri: string, parts: seq<string>, decode: Decoder): (r: Result<Route, string>)
    ensures parts == ["articles"] ==> r == Ok(Articles)
    ensures parts == ["definitions"] ==> r == Ok(Definitions)
    ensures parts == ["examples"] ==> r == Ok(Examples)
    ensures |parts| == 2 && parts[0] == "article" ==>
      (decode(parts[1]).Ok? ==> r == Ok(Article(decode(parts[1]).value))) &&
      (decode(parts[1]).Err? ==> r == Err(decode(parts[1]).error))
    ensures |parts| == 2 && parts[0] == "definition" ==>
      (decode(parts[1]).Ok? ==> r == Ok(Definition(decode(parts[1]).value))) &&
      (decode(parts[1]).Err? ==> r == Err(decode(parts[1]).error))
    ensures |parts| == 2 && parts[0] == "example" && decode(parts[1]).Err? ==> r == Err(decode(parts[1]).error)
    ensures |parts| == 2 && parts[0] == "example" && decode(parts[1]).Ok? ==>
      var path := Split(decode(parts[1]).value, '/');
      (|path| == 2 ==> r == Ok(Example(path[0], path[1]))) &&
      (|path| != 2 ==> r == Err(Raised("Invalid example path format: " + parts[1])))
    ensures !KnownShape(parts) ==> r == Err(Unsupported(uri))
  {
    if |parts| == 1 && parts[0] == "articles" then Ok(Articles)
    else if |parts| == 2 && parts[0] == "article" then
      match decode(parts[1])
      case Err(e) => Err(e)
      case Ok(slug) => Ok(Article(slug))
    else if |parts| == 1 && parts[0] == "definitions" then Ok(Definitions)
    else if |parts| == 2 && parts[0] == "definition" then
      match decode(parts[1])
      case Err(e) => Err(e)
      case Ok(name) => Ok(Definition(name))
    else if |parts| == 1 && parts[0] == "examples" then Ok(Examples)
    else if |parts| == 2 && parts[0] == "example" then
      match decode(parts[1])
      case Err(e) => Err(e)
      case Ok(path) =>
        var pathParts := Split(path, '/');
        if |pathParts| != 2 then Err(Raised("Invalid example path format: " + parts[1]))
        else Ok(Example(pathParts[0], pathParts[1]))
    else Err(Unsupported(uri))
  }

  /** A segment without "/" is the only part of its URI. */
  lemma OneSegment(segment: string)
    requires '/' !in segment
    ensures Parts(Scheme + segment) == [segment]
  {
    assert (Scheme + segment)[|Scheme|..] == segment;
    SplitJoin([segment], '/');
  }

  /** A trailing slash and an empty remainder are not known shapes. */
  lemma ExtraSegmentsRejected(decode: Decoder)
    ensures RouteOf(Scheme + "articles/", Parts(Scheme + "articles/"), decode) == Err(Unsupported(Scheme + "articles/"))
    ensures RouteOf(Scheme, Parts(Scheme), decode) == Err(Unsupported(Scheme))
  {
    TwoSegments("articles", "");
    assert Scheme + "articles" + "/" + "" == Scheme + "articles/";
    OneSegment("");
    assert Scheme + "" == Scheme;
  }

  function MimeType(route: Route): (m: string)
    ensures route.Articles? || route.Definitions? || route.Examples? ==> m == "application/json"
    ensures route.Article? || route.Definition? ==> m == "text/markdown"
    ensures route.Example? ==> m == "text/plain"
  {
    match route
    case Articles => "application/json"
    case Definitions => "application/json"
    case Examples => "application/json"
    case Article(_) => "text/markdown"
    case Definition(_) => "text/markdown"
    case Example(_, _) => "text/plain"
  }

  /** One `contents` entry of a resource read. */
  datatype ResourceContent = ResourceContent(uri: string, mimeType: string, text: string)

  /** What serving a route settles to: its rendered text or the rendered error of
      the content request, given the version and framework. */
  type Server = (Route, string, GridFramework) -> Result<string, string>

  function Wrapped(uri: string, error: string): string
  {
    "Failed to fetch resource " + uri + ": " + error
  }

  /** `handleResource` for the current project and what `getLatestVersion` settles
      to. A URI outside the scheme and a failed version lookup are raised as they
      are; every later failure is wrapped with the URI. */
  function HandleResource(uri: string, current: Option<ProjectState>, latest: Result<Option<string>, string>,
                          decode: Decoder, serve: Server): (r: Result<ResourceContent, string>)
    ensures !StartsWith(uri, Scheme) ==> r == Err("Invalid resource URI: " + uri)
    ensures StartsWith(uri, Scheme) && ProjectVersion(current, latest).Err? ==>
      r == Err(ProjectVersion(current, latest).error)
    ensures StartsWith(uri, Scheme) && ProjectVersion(current, latest).Ok? ==>
      var route := RouteOf(uri, Parts(uri), decode);
      (route.Err? ==> r == Err(Wrapped(uri, route.error))) &&
      (route.Ok? ==>
        var served := serve(route.value, ProjectVersion(current, latest).value, FrameworkOf(current));
        (served.Err? ==> r == Err(Wrapped(uri, served.error))) &&
        (served.Ok? ==> r == Ok(ResourceContent(uri, MimeType(route.value), served.value))))
  {
    if !StartsWith(uri, Scheme) then Err("Invalid resource URI: " + uri)
    else match ProjectVersion(current, latest)
      case Err(e) => Err(e)
      case Ok(version) =>
        match RouteOf(uri, Parts(uri), decode)
        case Err(e) => Err(Wrapped(uri, e))
        case Ok(route) =>
          match serve(route, version, FrameworkOf(current))
          case Err(e) => Err(Wrapped(uri, e))
          case Ok(text) => Ok(ResourceContent(uri, MimeType(route), text))
  }

  // ---- listResources ----

  datatype ResourceListing = ResourceListing(uri: string, name: string, description: string, mimeType: string)

  function VersionInfo(current: Option<ProjectState>, version: string): string
  {
    match current
    case Some(p) => "(detected: v" + p.version + ", " + p.framework.Name() + ")"
    case None => "(default: v" + version + ", " + FrameworkOf(current).Name() + ")"
  }

  /** `listResources()`: the article, definition and example lists, described for
      the project version and framework. */
  function ListResources(current: Option<ProjectState>, latest: Result<Option<string>, string>)
    : (r: Result<seq<ResourceListing>, string>)
    ensures ProjectVersion(current, latest).Err? ==> r == Err(ProjectVersion(current, latest).error)
    ensures ProjectVersion(current, latest).Ok? ==>
      r.Ok? && |r.value| == 3 &&
      r.value[0].uri == "ag-mcp://articles" && r.value[1].uri == "ag-mcp://definitions" &&
      r.value[2].uri == "ag-mcp://examples" &&
      forall i :: 0 <= i < 3 ==> r.value[i].mimeType == "application/json"
  {
    match ProjectVersion(current, latest)
    case Err(e) => Err(e)
    case Ok(version) =>
      var framework := FrameworkOf(current).Name();
      var info := VersionInfo(current, version);
      Ok([
        ResourceListing("ag-mcp://articles", "AG Grid " + framework + " Articles " + info,
          "Browse all AG Grid articles for " + framework + " framework version " + version, "application/json"),
        ResourceListing("ag-mcp://definitions", "AG Grid API Definitions v" + version,
          "Browse AG Grid API definitions and interfaces for version " + version, "application/json"),
        ResourceListing("ag-mcp://examples", "AG Grid " + framework + " Examples " + info,
          "Browse code examples for AG Grid " + framework + " version " + version, "application/json")
      ])
  }

  /** Each advertised URI routes to its own list branch. */
  lemma ArticlesRoute(decode: Decoder)
    ensures RouteOf(Scheme + "articles", Parts(Scheme + "articles"), decode) == Ok(Articles)
  {
    OneSegment("articles");
  }

  lemma DefinitionsRoute(decode: Decoder)
    ensures RouteOf(Scheme + "definitions", Parts(Scheme + "definitions"), decode) == Ok(Definitions)
  {
    OneSegment("definitions");
  }

  lemma ExamplesRoute(decode: Decoder)
    ensures RouteOf(Scheme + "examples", Parts(Scheme + "examples"), decode) == Ok(Examples)
  {
    OneSegment("examples");
  }

  // ---- the links the list branches generate ----

  /** `ag-mcp://article/<encoded last segment of the article URI>`. */
  function ArticleLink(articleUri: string, encode: string -> string): string
  {
    Scheme + "article/" + encode(LastPart(articleUri, '/'))
  }

  /** `ag-mcp://definition/<encoded last segment of the definition URI>`. */
  function DefinitionLink(definitionUri: string, encode: string -> string): string
  {
    Scheme + "definition/" + encode(LastPart(definitionUri, '/'))
  }

  /** The last two segments of a URI (`split("/").slice(-2)`). */
  function LastTwo(parts: seq<string>): (r: seq<string>)
    ensures |parts| >= 2 ==> r == parts[|parts| - 2..]
    ensures |parts| < 2 ==> r == parts
  {
    if |parts| >= 2 then parts[|parts| - 2..] else parts
  }

  /** `ag-mcp://example/<encoded "article/example" path>`. */
  function ExampleLink(exampleUri: string, encode: string -> string): string
  {
    Scheme + "example/" + encode(Join(LastTwo(Split(exampleUri, '/')), '/'))
  }

  /** A two-segment link routes by its second segment. */
  lemma TwoSegments(head: string, tail: string)
    requires '/' !in head && '/' !in tail
    ensures Parts(Scheme + head + "/" + tail) == [head, tail]
  {
    var uri := Scheme + head + "/" + tail;
    assert uri[|Scheme|..] == head + ['/'] + tail;
    SplitAround(head, '/', tail);
    LastPartWhole(head, '/');
    LastPartWhole(tail, '/');
    SplitJoin([head], '/');
    SplitJoin([tail], '/');
  }

  /** Round trip: a generated article link routes back to the article's last
      segment, for an encoder whose output has no "/" and which the decoder
      inverts on that segment. */
  lemma ArticleLinkRoundTrip(articleUri: string, encode: string -> string, decode: Decoder)
    requires '/' !in encode(LastPart(articleUri, '/'))
    requires decode(encode(LastPart(articleUri, '/'))) == Ok(LastPart(articleUri, '/'))
    ensures var link := ArticleLink(articleUri, encode);
      StartsWith(link, Scheme) && RouteOf(link, Parts(link), decode) == Ok(Article(LastPart(articleUri, '/')))
  {
    var e := encode(LastPart(articleUri, '/'));
    assert Scheme + "article/" + e == Scheme + "article" + "/" + e;
    TwoSegments("article", e);
  }

  /** The same round trip for definition links. */
  lemma DefinitionLinkRoundTrip(definitionUri: string, encode: string -> string, decode: Decoder)
    requires '/' !in encode(LastPart(definitionUri, '/'))
    requires decode(encode(LastPart(definitionUri, '/'))) == Ok(LastPart(definitionUri, '/'))
    ensures var link := DefinitionLink(definitionUri, encode);
      StartsWith(link, Scheme) && RouteOf(link, Parts(link), decode) == Ok(Definition(LastPart(definitionUri, '/')))
  {
    var e := encode(LastPart(definitionUri, '/'));
    assert Scheme + "definition/" + e == Scheme + "definition" + "/" + e;
    TwoSegments("definition", e);
  }

  /** An example link whose segment decodes to a two-part path routes to that path. */
  lemma ExampleRoute(e: string, decode: Decoder, path: string, a: string, b: string)
    requires '/' !in e && decode(e) == Ok(path) && Split(path, '/') == [a, b]
    ensures var link := Scheme + "example/" + e;
      StartsWith(link, Scheme) && RouteOf(link, Parts(link), decode) == Ok(Example(a, b))
  {
    var link := Scheme + "example/" + e;
    assert link == Scheme + "example" + "/" + e;
    TwoSegments("example", e);
    assert link[..|Scheme|] == Scheme;
    var parts := Parts(link);
    assert parts == ["example", e];
    assert RouteOf(link, parts, decode) == Ok(Example(a, b));
  }

  /** Round trip: a generated example link for a URI with at least two segments
      routes back to those last two segments. */
  lemma ExampleLinkRoundTrip(exampleUri: string, encode: string -> string, decode: Decoder)
    requires |Split(exampleUri, '/')| >= 2
    requires var path := Join(LastTwo(Split(exampleUri, '/')), '/');
      '/' !in encode(path) && decode(encode(path)) == Ok(path)
    ensures var link := ExampleLink(exampleUri, encode);
      var segments := Split(exampleUri, '/');
      StartsWith(link, Scheme) &&
      RouteOf(link, Parts(link), decode) == Ok(Example(segments[|segments| - 2], segments[|segments| - 1]))
  {
    var segments := Split(exampleUri, '/');
    var two := LastTwo(segments);
    var path := Join(two, '/');
    assert two == [segments[|segments| - 2], segments[|segments| - 1]];
    SplitJoin(two, '/');
    ExampleRoute(encode(path), decode, path, two[0], two[1]);
  }
}

=== FILE: schema.dfy ===
/** The shapes the content API's validators produce. The validators themselves
    (declared with a schema library in the source) are opaque functions from decoded
    JSON to a typed value or a validation message. */
module Schema {
  import opened Wrappers
  import opened Semver

  /** Decoded JSON. Numbers are modelled as integers. */
  datatype Json =
    | JNull
    | JBool(b: bool)
    | JNumber(n: int)
    | JString(s: string)
    | JArray(items: seq<Json>)
    | JObject(fields: seq<(string, Json)>)

  /** JavaScript truthiness of a JSON value: arrays and objects are always truthy. */
  predicate JsonTruthy(j: Json)
  {
    match j
    case JNull => false
    case JBool(b) => b
    case JNumber(n) => n != 0
    case JString(s) => s != ""
    case _ => true
  }

  /** A named link of a version's index document. */
  datatype Link = Link(id: string, url: string)

  /** A validated version descriptor: `id` is the raw version string. */
  datatype Version = Version(id: string, semver: SemverType, releaseDate: string, url: string, isLatest: bool)

  /** A framework entry of a version; `examples` maps a language to its example-list URL. */
  datatype Framework = Framework(
    framework: string, slug: string, examples: map<string, string>,
    docs: string, migrations: string, api: string)

  datatype Doc = Doc(
    id: string, name: string, description: Option<string>, url: string,
    isEnterprise: bool, mimeType: string)

  datatype Migration = Migration(migrationVersion: string, semver: SemverType, url: string, mimeType: string)

  datatype Example = Example(exampleName: string, pageName: string, url: string, preview: string)

  /** A module entry; its own nested children are never inspected by the core. */
  datatype Module = Module(moduleName: Option<string>, name: string, isEnterprise: bool)

  datatype ModuleGroup = ModuleGroup(name: string, children: Option<seq<Module>>, isEnterprise: bool)

  /** Every value a validator can put into the fetch cache, one case per schema. */
  datatype Value =
    | IndexValue(links: seq<Link>)
    | FrameworkListValue(frameworks: seq<Framework>)
    | ChangeLogValue(changes: seq<Json>)
    | ModuleListValue(groups: seq<ModuleGroup>)
    | DocListValue(docs: seq<Doc>)
    | MigrationListValue(migrations: seq<Migration>)
    | ExampleListValue(examples: seq<Example>)
    | UnknownValue(json: Json)

  /** Truthiness of a cached value: only the schema that accepts anything can yield a falsy one. */
  predicate Truthy(v: Value)
  {
    !v.UnknownValue? || JsonTruthy(v.json)
  }

  /** A validator: decoded JSON in, a cached value or a validation message out. */
  type Validator = Json -> Result<Value, string>

  /** The opaque schemas the endpoints validate with. */
  datatype Schemas = Schemas(
    index: Json -> Result<seq<Link>, string>,
    frameworkList: Json -> Result<seq<Framework>, string>,
    changeLog: Json -> Result<seq<Json>, string>,
    moduleList: Json -> Result<seq<ModuleGroup>, string>,
    docList: Json -> Result<seq<Doc>, string>,
    migrationList: Json -> Result<seq<Migration>, string>,
    exampleList: Json -> Result<seq<Example>, string>)

  function Wrap<T>(r: Result<T, string>, tag: T -> Value): Result<Value, string>
  {
    match r
    case Ok(x) => Ok(tag(x))
    case Err(e) => Err(e)
  }

  function IndexSchema(s: Schemas): Validator { j => Wrap(s.index(j), l => IndexValue(l)) }
  function FrameworkListSchema(s: Schemas): Validator { j => Wrap(s.frameworkList(j), l => FrameworkListValue(l)) }
  function ChangeLogSchema(s: Schemas): Validator { j => Wrap(s.changeLog(j), l => ChangeLogValue(l)) }
  function ModuleListSchema(s: Schemas): Validator { j => Wrap(s.moduleList(j), l => ModuleListValue(l)) }
  function DocListSchema(s: Schemas): Validator { j => Wrap(s.docList(j), l => DocListValue(l)) }
  function MigrationListSchema(s: Schemas): Validator { j => Wrap(s.migrationList(j), l => MigrationListValue(l)) }
  function ExampleListSchema(s: Schemas): Validator { j => Wrap(s.exampleList(j), l => ExampleListValue(l)) }

  /** `z.unknown()`: accepts any JSON unchanged. */
  function UnknownSchema(): Validator { j => Ok(UnknownValue(j)) }

  /** The source reads a cached value back with an unchecked cast, so a value stored
      under the same URL by another schema is handed on as it is; where the caller
      then searches it as a list of a given shape, the model reports this error. */
  const ShapeError := "TypeError: cached value has an unexpected shape"

  function AsLinks(r: Result<Value, string>): Result<seq<Link>, string>
  {
    match r
    case Err(e) => Err(e)
    case Ok(IndexValue(l)) => Ok(l)
    case Ok(_) => Err(ShapeError)
  }

  function AsFrameworks(r: Result<Value, string>): Result<seq<Framework>, string>
  {
    match r
    case Err(e) => Err(e)
    case Ok(FrameworkListValue(l)) => Ok(l)
    case Ok(_) => Err(ShapeError)
  }

  function AsDocs(r: Result<Value, string>): Result<seq<Doc>, string>
  {
    match r
    case Err(e) => Err(e)
    case Ok(DocListValue(l)) => Ok(l)
    case Ok(_) => Err(ShapeError)
  }

  function AsMigrations(r: Result<Value, string>): Result<seq<Migration>, string>
  {
    match r
    case Err(e) => Err(e)
    case Ok(MigrationListValue(l)) => Ok(l)
    case Ok(_) => Err(ShapeError)
  }

  function AsExamples(r: Result<Value, string>): Result<seq<Example>, string>
  {
    match r
    case Err(e) => Err(e)
    case Ok(ExampleListValue(l)) => Ok(l)
    case Ok(_) => Err(ShapeError)
  }

  function AsModuleGroups(r: Result<Value, string>): Result<seq<ModuleGroup>, string>
  {
    match r
    case Err(e) => Err(e)
    case Ok(ModuleListValue(g)) => Ok(g)
    case Ok(_) => Err(ShapeError)
  }
}

=== FILE: semver.dfy ===
/** Semantic-version comparison and parsing (src/utils/semver.ts). */
module Semver {
  import opened Wrappers
  import opened Strings

  /** `{ major, minor, patch }`; `parse` only ever produces non-negative integers. */
  datatype SemverType = SemverType(major: nat, minor: nat, patch: nat)

  /** `eq`: all three components agree. */
  function Eq(a: SemverType, b: SemverType): (r: bool)
    ensures r <==> a == b
  {
    a.major == b.major && a.minor == b.minor && a.patch == b.patch
  }

  /** `gt`: the first differing component decides. */
  function Gt(a: SemverType, b: SemverType): (r: bool)
    ensures r ==> a != b
    ensures r <==> Lt(b, a)
  {
    if a.major != b.major then a.major > b.major
    else if a.minor != b.minor then a.minor > b.minor
    else a.patch > b.patch
  }

  /** `lt`: the first differing component decides. */
  function Lt(a: SemverType, b: SemverType): (r: bool)
    ensures r ==> a != b
    ensures r ==> a.major <= b.major
  {
    if a.major != b.major then a.major < b.major
    else if a.minor != b.minor then a.minor < b.minor
    else a.patch < b.patch
  }

  /** `between`: strictly after `start` and strictly before `end`. */
  function Between(a: SemverType, start: SemverType, end: SemverType): (r: bool)
    ensures r ==> !Eq(a, start) && !Eq(a, end)
    ensures r ==> Lt(start, end)
  {
    LtTransitive(start, a, end);
    Gt(a, start) && Lt(a, end)
  }

  /** Exactly one of `lt`, `eq`, `gt` holds for any two versions. */
  lemma Trichotomy(a: SemverType, b: SemverType)
    ensures Lt(a, b) || Eq(a, b) || Gt(a, b)
    ensures !(Lt(a, b) && Eq(a, b)) && !(Lt(a, b) && Gt(a, b)) && !(Eq(a, b) && Gt(a, b))
  {
  }

  lemma LtTransitive(a: SemverType, b: SemverType, c: SemverType)
    ensures Lt(a, b) && Lt(b, c) ==> Lt(a, c)
  {
  }

  /** An interval whose end is not after its start contains nothing. */
  lemma BetweenEmpty(a: SemverType, start: SemverType, end: SemverType)
    requires !Gt(end, start)
    ensures !Between(a, start, end)
  {
  }

  /** What the regular expression `^v?(\d+)` needs: an optional `v`, then a digit. */
  predicate LeadsWithNumber(s: string)
  {
    (|s| > 0 && IsDigit(s[0])) || (|s| > 1 && s[0] == 'v' && IsDigit(s[1]))
  }

  /** The digit group after a `.` at the start of `s`, or empty when `s` does not
      start with a `.` followed by a digit (the optional group `(?:\.(\d+))?`). */
  function DottedGroup(s: string): (g: string)
    ensures AllDigits(g)
    ensures g != [] ==> |s| > |g| && s[0] == '.' && s[1..|g| + 1] == g
  {
    if |s| >= 2 && s[0] == '.' then TakeDigits(s[1..]) else []
  }

  /** The text after the optional leading `v` of `^v?`. */
  function StripV(version: string): string
  {
    if |version| > 0 && version[0] == 'v' then version[1..] else version
  }

  /** The numeric groups `(\d+)(?:\.(\d+))?(?:\.(\d+))?` at the start of `body`;
      `version` is only quoted in the error. */
  function ParseGroups(body: string, version: string): Result<SemverType, string>
  {
    var major := TakeDigits(body);
    if major == [] then Err("Invalid semver version: " + version)
    else
      var rest := body[|major|..];
      var minor := DottedGroup(rest);
      if minor == [] then Ok(SemverType(DigitsValue(major), 0, 0))
      else
        var patch := DottedGroup(rest[|minor| + 1..]);
        Ok(SemverType(DigitsValue(major), DigitsValue(minor), DigitsValue(patch)))
  }

  /** `parse`: `^v?(\d+)(?:\.(\d+))?(?:\.(\d+))?` at the start of the string, missing groups
      read as 0, anything after the match ignored. */
  function Parse(version: string): (r: Result<SemverType, string>)
    ensures r.Ok? <==> LeadsWithNumber(version)
    ensures r.Err? ==> r.error == "Invalid semver version: " + version
  {
    ParseGroups(StripV(version), version)
  }

  /** The canonical rendering `MAJOR.MINOR.PATCH`. */
  function Format(v: SemverType): string
  {
    NatToString(v.major) + "." + NatToString(v.minor) + "." + NatToString(v.patch)
  }

  lemma DottedGroupOf(n: nat, rest: string)
    requires rest == [] || !IsDigit(rest[0])
    ensures DottedGroup("." + NatToString(n) + rest) == NatToString(n)
  {
    var s := "." + NatToString(n) + rest;
    assert s[1..] == NatToString(n) + rest;
    TakeDigitsStops(NatToString(n), rest);
  }

  lemma {:induction false} ParseGroupsFormat(v: SemverType, rest: string, version: string)
    requires rest == [] || !IsDigit(rest[0])
    ensures ParseGroups(Format(v) + rest, version) == Ok(v)
  {
    var a, b, c := NatToString(v.major), NatToString(v.minor), NatToString(v.patch);
    var body := Format(v) + rest;
    var r2 := "." + c + rest;
    var r1 := "." + b + r2;
    assert body == a + r1;
    assert TakeDigits(body) == a by { TakeDigitsStops(a, r1); }
    assert DottedGroup(r1) == b by { DottedGroupOf(v.minor, r2); }
    assert DottedGroup(r2) == c by { DottedGroupOf(v.patch, rest); }
    ParseGroupsThree(body, version, a, b, r2);
    NatToStringValue(v.major);
    NatToStringValue(v.minor);
    NatToStringValue(v.patch);
  }

  /** The groups of a body that holds a major group, then a minor group. */
  lemma ParseGroupsThree(body: string, version: string, major: string, minor: string, after: string)
    requires major != [] && TakeDigits(body) == major
    requires body == major + ("." + minor + after)
    requires minor != [] && DottedGroup("." + minor + after) == minor
    ensures ParseGroups(body, version) ==
      Ok(SemverType(DigitsValue(major), DigitsValue(minor), DigitsValue(DottedGroup(after))))
  {
    var r1 := "." + minor + after;
    assert body[|major|..] == r1;
    assert r1[|minor| + 1..] == after;
  }

  /** Round trip: parsing a rendered version, with or without a leading `v` and
      followed by any text that does not continue the last number (such as
      `-beta`), gives the version back. */
  lemma {:induction false} ParseFormat(v: SemverType, withV: bool, rest: string)
    requires rest == [] || !IsDigit(rest[0])
    ensures Parse((if withV then "v" else "") + Format(v) + rest) == Ok(v)
  {
    var s := (if withV then "v" else "") + Format(v) + rest;
    var body := Format(v) + rest;
    assert s == (if withV then "v" else "") + body;
    assert body[0] == NatToString(v.major)[0];
    assert StripV(s) == body;
    ParseGroupsFormat(v, rest, s);
  }

  /** A bare major number, not followed by `.` and a digit, parses with minor and patch 0. */
  lemma {:induction false} ParseMajorOnly(n: nat, rest: string)
    requires rest == [] || !IsDigit(rest[0])
    requires !(|rest| >= 2 && rest[0] == '.' && IsDigit(rest[1]))
    ensures Parse(NatToString(n) + rest) == Ok(SemverType(n, 0, 0))
  {
    var s := NatToString(n) + rest;
    TakeDigitsStops(NatToString(n), rest);
    assert s[|NatToString(n)|..] == rest;
    NatToStringValue(n);
  }

  /** A major and minor number, not followed by `.` and a digit, parse with patch 0. */
  lemma {:induction false} ParseMajorMinor(a: nat, b: nat, rest: string)
    requires rest == [] || !IsDigit(rest[0])
    requires !(|rest| >= 2 && rest[0] == '.' && IsDigit(rest[1]))
    ensures Parse(NatToString(a) + "." + NatToString(b) + rest) == Ok(SemverType(a, b, 0))
  {
    var sa, sb := NatToString(a), NatToString(b);
    var r1 := "." + sb + rest;
    var s := sa + r1;
    assert NatToString(a) + "." + NatToString(b) + rest == s;
    assert StripV(s) == s by { assert s[0] == sa[0]; }
    assert TakeDigits(s) == sa by { TakeDigitsStops(sa, r1); }
    assert DottedGroup(r1) == sb by { DottedGroupOf(b, rest); }
    assert DottedGroup(rest) == [] by {
      if |rest| >= 2 && rest[0] == '.' {
        TakeDigitsStops([], rest[1..]);
        assert [] + rest[1..] == rest[1..];
      }
    }
    ParseGroupsThree(s, s, sa, sb, rest);
    NatToStringValue(a);
    NatToStringValue(b);
  }

  /** `generateMajorVersionPath`: every major version after `from`'s, up to and
      including `to`'s, in ascending order. A version that does not parse raises
      its parse error, `from` first. */
  method GenerateMajorVersionPath(from: string, to: string) returns (r: Result<seq<nat>, string>)
    ensures Parse(from).Err? ==> r == Err(Parse(from).error)
    ensures Parse(from).Ok? && Parse(to).Err? ==> r == Err(Parse(to).error)
    ensures r.Ok? <==> Parse(from).Ok? && Parse(to).Ok?
    ensures r.Ok? ==>
      var lo, hi := Parse(from).value.major, Parse(to).value.major;
      |r.value| == (if hi > lo then hi - lo else 0) &&
      forall k :: 0 <= k < |r.value| ==> r.value[k] == lo + 1 + k
  {
    var fromVer := Parse(from);
    if fromVer.Err? {
      return Err(fromVer.error);
    }
    var toVer := Parse(to);
    if toVer.Err? {
      return Err(toVer.error);
    }
    var path := MajorsAfter(fromVer.value.major, toVer.value.major);
    return Ok(path);
  }

  /** The loop of `generateMajorVersionPath`: `lo + 1` up to and including `hi`. */
  method MajorsAfter(lo: nat, hi: nat) returns (path: seq<nat>)
    ensures |path| == (if hi > lo then hi - lo else 0)
    ensures forall k :: 0 <= k < |path| ==> path[k] == lo + 1 + k
  {
    path := [];
    var major := lo + 1;
    while major <= hi
      invariant lo + 1 <= major <= (if hi > lo then hi + 1 else lo + 1)
      invariant |path| == major - lo - 1
      invariant forall k :: 0 <= k < |path| ==> path[k] == lo + 1 + k
    {
      path := path + [major];
      major := major + 1;
    }
  }
}

=== FILE: strings.dfy ===
/** String operations the source takes from the JavaScript runtime:
    `startsWith`, `includes`, `split`, `toLowerCase`, `parseInt` and
    decimal rendering of numbers. Strings are sequences of UTF-16 units,
    modelled as `seq<char>`. */
module Strings {

  predicate IsDigit(c: char) { '0' <= c <= '9' }

  predicate AllDigits(s: string) { forall i :: 0 <= i < |s| ==> IsDigit(s[i]) }

  /** `s.startsWith(prefix)`. */
  predicate StartsWith(s: string, prefix: string)
  {
    |prefix| <= |s| && s[..|prefix|] == prefix
  }

  /** `s.includes(sub)`: `sub` occurs somewhere in `s` (the empty string occurs everywhere). */
  predicate Contains(s: string, sub: string)
    decreases |s|
  {
    StartsWith(s, sub) || (|s| > 0 && Contains(s[1..], sub))
  }

  /** `toLowerCase` restricted to ASCII: upper-case Latin letters map to lower case,
      every other character is kept. */
  function LowerChar(c: char): char
  {
    if 'A' <= c <= 'Z' then (c as int + 32) as char else c
  }

  function Lower(s: string): (r: string)
    ensures |r| == |s|
    ensures forall i :: 0 <= i < |s| ==> r[i] == LowerChar(s[i])
  {
    seq(|s|, i requires 0 <= i < |s| => LowerChar(s[i]))
  }

  /** Position of the first `c` in `s`, or `|s|` when `c` does not occur. */
  function IndexOf(s: string, c: char): (k: nat)
    ensures k <= |s|
    ensures k < |s| ==> s[k] == c
    ensures forall j :: 0 <= j < k ==> s[j] != c
    decreases |s|
  {
    if s == [] then 0
    else if s[0] == c then 0
    else 1 + IndexOf(s[1..], c)
  }

  /** Inverse of `Split`: the parts with `sep` between consecutive ones. */
  function Join(parts: seq<string>, sep: char): string
    decreases |parts|
  {
    if parts == [] then ""
    else if |parts| == 1 then parts[0]
    else parts[0] + [sep] + Join(parts[1..], sep)
  }

  /** `s.split(sep)` for a one-character separator: always at least one part,
      no part contains the separator, and joining the parts gives `s` back. */
  function Split(s: string, sep: char): (parts: seq<string>)
    ensures |parts| >= 1
    ensures forall i :: 0 <= i < |parts| ==> sep !in parts[i]
    ensures Join(parts, sep) == s
    decreases |s|
  {
    var k := IndexOf(s, sep);
    if k == |s| then
      assert sep !in s by {
        forall j | 0 <= j < |s| ensures s[j] != sep { }
      }
      [s]
    else
      var head, tail := s[..k], Split(s[k + 1..], sep);
      assert sep !in head by {
        forall j | 0 <= j < |head| ensures head[j] != sep { }
      }
      assert s == head + [sep] + s[k + 1..];
      [head] + tail
  }

  lemma {:induction false} IndexOfJoined(p: string, sep: char, rest: string)
    requires sep !in p
    ensures IndexOf(p + [sep] + rest, sep) == |p|
  {
    var s := p + [sep] + rest;
    assert s[|p|] == sep;
    assert forall j :: 0 <= j < |p| ==> s[j] == p[j] && p[j] in p;
  }

  /** Splitting the join of separator-free parts gives the parts back. */
  lemma {:induction false} SplitJoin(parts: seq<string>, sep: char)
    requires |parts| >= 1
    requires forall i :: 0 <= i < |parts| ==> sep !in parts[i]
    ensures Split(Join(parts, sep), sep) == parts
    decreases |parts|
  {
    if |parts| == 1 {
      var s := parts[0];
      var k := IndexOf(s, sep);
      if k < |s| {
        assert s[k] in s;
      }
    } else {
      var s := Join(parts, sep);
      IndexOfJoined(parts[0], sep, Join(parts[1..], sep));
      assert s[|parts[0]| + 1..] == Join(parts[1..], sep);
      assert s[..|parts[0]|] == parts[0];
      SplitJoin(parts[1..], sep);
    }
  }

  /** The last part of `s.split(sep)` (`.pop()` on the split array). */
  function LastPart(s: string, sep: char): (r: string)
    ensures sep !in r
  {
    var parts := Split(s, sep);
    parts[|parts| - 1]
  }

  lemma {:induction false} JoinAppend(a: seq<string>, b: seq<string>, sep: char)
    requires |a| >= 1 && |b| >= 1
    ensures Join(a + b, sep) == Join(a, sep) + [sep] + Join(b, sep)
    decreases |a|
  {
    if |a| == 1 {
      assert (a + b)[1..] == b;
    } else {
      assert (a + b)[1..] == a[1..] + b;
      JoinAppend(a[1..], b, sep);
    }
  }

  /** Splitting around one separator splits each side independently. */
  lemma SplitAround(a: string, sep: char, b: string)
    ensures Split(a + [sep] + b, sep) == Split(a, sep) + Split(b, sep)
  {
    var pa, pb := Split(a, sep), Split(b, sep);
    JoinAppend(pa, pb, sep);
    SplitJoin(pa + pb, sep);
  }

  /** The last part after a separator is whatever follows the last separator. */
  lemma LastPartAfter(a: string, sep: char, last: string)
    requires sep !in last
    ensures LastPart(a + [sep] + last, sep) == last
  {
    SplitAround(a, sep, last);
    SplitJoin([last], sep);
  }

  /** A string without the separator is its own last part. */
  lemma LastPartWhole(s: string, sep: char)
    requires sep !in s
    ensures LastPart(s, sep) == s
  {
    SplitJoin([s], sep);
  }

  // ---- decimal numbers ----

  function DigitChar(d: nat): (c: char)
    requires d < 10
    ensures IsDigit(c)
  {
    ('0' as int + d) as char
  }

  function DigitValue(c: char): nat
    requires IsDigit(c)
  {
    c as int - '0' as int
  }

  /** `parseInt(s, 10)` of a non-empty run of decimal digits. */
  function DigitsValue(s: string): nat
    requires AllDigits(s)
    decreases |s|
  {
    if s == [] then 0 else 10 * DigitsValue(s[..|s| - 1]) + DigitValue(s[|s| - 1])
  }

  /** Decimal rendering of a natural number, as `String(n)` does it. */
  function NatToString(n: nat): (s: string)
    ensures |s| >= 1 && AllDigits(s)
    decreases n
  {
    if n < 10 then [DigitChar(n)] else NatToString(n / 10) + [DigitChar(n % 10)]
  }

  /** Reading back a rendered number gives the number. */
  lemma {:induction false} NatToStringValue(n: nat)
    ensures DigitsValue(NatToString(n)) == n
    decreases n
  {
    var s := NatToString(n);
    if n >= 10 {
      NatToStringValue(n / 10);
      assert s[..|s| - 1] == NatToString(n / 10);
    }
  }

  /** The longest prefix of `s` made of decimal digits (what `\d+` matches greedily). */
  function TakeDigits(s: string): (d: string)
    ensures |d| <= |s| && d == s[..|d|] && AllDigits(d)
    ensures |d| < |s| ==> !IsDigit(s[|d|])
    decreases |s|
  {
    if s == [] || !IsDigit(s[0]) then [] else [s[0]] + TakeDigits(s[1..])
  }

  /** The greedy digit run of `ds + rest` is exactly `ds` when `rest` does not go on with a digit. */
  lemma {:induction false} TakeDigitsStops(ds: string, rest: string)
    requires AllDigits(ds)
    requires rest == [] || !IsDigit(rest[0])
    ensures TakeDigits(ds + rest) == ds
    decreases |ds|
  {
    if ds == [] {
      assert ds + rest == rest;
    } else {
      assert (ds + rest)[1..] == ds[1..] + rest;
      TakeDigitsStops(ds[1..], rest);
    }
  }
}

=== FILE: validator.dfy ===
/** The version-configuration check (src/utils/version-validator.ts): the current
    project's settings, else those of a detected project, else a typed error. */
module VersionValidator {
  import opened Wrappers
  import opened Project

  /** `VersionConfig`. */
  datatype VersionConfig = VersionConfig(version: string, framework: GridFramework, enterprise: Option<bool>)

  /** `VersionValidationError`: an `Error` whose `name` is fixed, with a suggestion. */
  datatype VersionValidationError = VersionValidationError(name: string, message: string, suggestion: string)

  const NotConfigured := VersionValidationError(
    "VersionValidationError",
    "No AG Grid version/framework configuration found and auto-detection failed",
    "Use the set_versions tool to manually configure your AG Grid version and framework (e.g., set_versions with version='34.1.0' and framework='react')")

  function ConfigOf(p: ProjectState): (c: VersionConfig)
    ensures c.version == p.version && c.framework == p.framework && c.enterprise == p.enterprise
  {
    VersionConfig(p.version, p.framework, p.enterprise)
  }

  /** `validateVersionConfig`: its outcome and the current project afterwards. */
  function ValidateStep(current: Option<ProjectState>, read: Result<Option<ConfigProject>, string>,
                        save: Result<(), string>): (p: (Result<VersionConfig, VersionValidationError>, Option<ProjectState>))
    ensures current.Some? ==> p == (Ok(ConfigOf(current.value)), current)
    ensures current.None? ==> p.1 == DetectStep(current, read, save).1
    ensures current.None? && DetectStep(current, read, save).0.Some? ==>
      p.0 == Ok(ConfigOf(DetectStep(current, read, save).0.value))
    ensures p.0.Err? <==> current.None? && DetectStep(current, read, save).0.None?
    ensures p.0.Err? ==> p.0.error == NotConfigured && p.0.error.name == "VersionValidationError"
  {
    if current.Some? then (Ok(ConfigOf(current.value)), current)
    else
      var (detected, after) := DetectStep(current, read, save);
      if detected.Some? then (Ok(ConfigOf(detected.value)), after) else (Err(NotConfigured), after)
  }

  /** With no project and nothing detected, the error is raised and, when the read
      itself failed or found nothing, the state stays empty. */
  lemma NothingDetected(read: Result<Option<ConfigProject>, string>, save: Result<(), string>)
    requires read.Err? || read == Ok(None)
    ensures ValidateStep(None, read, save) == (Err(NotConfigured), None)
  {
  }

  /** `validateVersionConfig()` on the project store. */
  method ValidateVersionConfig(store: ProjectStore, read: Result<Option<ConfigProject>, string>, save: Result<(), string>)
    returns (r: Result<VersionConfig, VersionValidationError>)
    modifies store
    ensures (r, store.current) == ValidateStep(old(store.current), read, save)
  {
    var current := store.GetCurrentProject();
    if current.Some? {
      return Ok(ConfigOf(current.value));
    }
    var detected := store.DetectAndSetProject(read, save);
    if detected.Some? {
      return Ok(ConfigOf(detected.value));
    }
    r := Err(NotConfigured);
  }

  /** `validateVersionConfigSafe`: the configuration, or nothing exactly when the
      check throws. */
  function ValidateVersionConfigSafe(outcome: Result<VersionConfig, VersionValidationError>): (r: Option<VersionConfig>)
    ensures r.None? <==> outcome.Err?
    ensures r.Some? ==> r.value == outcome.value
  {
    match outcome
    case Ok(c) => Some(c)
    case Err(_) => None
  }
}

=== FILE: versions.dfy ===
/** The version list (src/api/version.ts): a five-minute cache in front of the
    version listing request, and the queries built on it. */
module Versions {
  import opened Wrappers
  import opened Collections
  import opened Strings
  import opened Semver

  /** One entry of the version listing. */
  datatype GridVersion = GridVersion(id: string, version: string, isLatest: bool,
                                     lastUpdated: string, lastChecked: string)

  /** Five minutes, in milliseconds. */
  const CACHE_DURATION: int := 5 * 60 * 1000

  /** A kept list is served while strictly less than `CACHE_DURATION` has passed. */
  predicate Fresh(cached: Option<seq<GridVersion>>, timestamp: int, now: int)
  {
    cached.Some? && now - timestamp < CACHE_DURATION
  }

  /** The outcome of one `getVersions` call: its result, the new cache state and
      whether the listing was requested. */
  datatype VersionsStep = VersionsStep(result: Result<seq<GridVersion>, string>,
                                       cached: Option<seq<GridVersion>>, timestamp: int, fetched: bool)

  /** `getVersions` at clock reading `now`, where `fetched` is what the listing
      request settles to if it is made. */
  function GetVersionsStep(cached: Option<seq<GridVersion>>, timestamp: int, now: int,
                           fetched: Result<seq<GridVersion>, string>): (s: VersionsStep)
    ensures s.fetched <==> !Fresh(cached, timestamp, now)
    ensures !s.fetched ==> s.result == Ok(cached.value) && s.cached == cached && s.timestamp == timestamp
    ensures s.fetched && fetched.Ok? ==>
      s.result == fetched && s.cached == Some(fetched.value) && s.timestamp == now
    ensures s.fetched && fetched.Err? ==> s.cached == cached && s.timestamp == timestamp
    ensures s.fetched && fetched.Err? && cached.Some? ==> s.result == Ok(cached.value)
    ensures s.fetched && fetched.Err? && cached.None? ==> s.result == Err(fetched.error)
    ensures s.result.Err? ==> s.cached.None?
  {
    if Fresh(cached, timestamp, now) then VersionsStep(Ok(cached.value), cached, timestamp, false)
    else match fetched
      case Ok(vs) => VersionsStep(Ok(vs), Some(vs), now, true)
      case Err(e) =>
        if cached.Some? then VersionsStep(Ok(cached.value), cached, timestamp, true)
        else VersionsStep(Err(e), cached, timestamp, true)
  }

  /** The freshness window is strict: a list stored at `t` is served at
      `t + CACHE_DURATION - 1` and refetched at `t + CACHE_DURATION`. */
  lemma FreshnessBoundary(vs: seq<GridVersion>, t: int, fetched: Result<seq<GridVersion>, string>)
    ensures !GetVersionsStep(Some(vs), t, t + CACHE_DURATION - 1, fetched).fetched
    ensures GetVersionsStep(Some(vs), t, t + CACHE_DURATION, fetched).fetched
  {
  }

  /** Once a list has been obtained, `getVersions` never fails again. */
  lemma {:induction false} NeverFailsOnceFilled(cached: Option<seq<GridVersion>>, timestamp: int,
                                                nows: seq<int>, outcomes: seq<Result<seq<GridVersion>, string>>)
    requires cached.Some?
    requires |nows| == |outcomes|
    ensures Replay(cached, timestamp, nows, outcomes).Some?
    decreases |nows|
  {
    if nows != [] {
      var s := GetVersionsStep(cached, timestamp, nows[0], outcomes[0]);
      NeverFailsOnceFilled(s.cached, s.timestamp, nows[1..], outcomes[1..]);
    }
  }

  /** The cache after a run of `getVersions` calls; `None` as soon as one of them fails. */
  function Replay(cached: Option<seq<GridVersion>>, timestamp: int,
                  nows: seq<int>, outcomes: seq<Result<seq<GridVersion>, string>>): Option<seq<GridVersion>>
    requires |nows| == |outcomes|
    decreases |nows|
  {
    if nows == [] then cached
    else
      var s := GetVersionsStep(cached, timestamp, nows[0], outcomes[0]);
      if s.result.Err? then None else Replay(s.cached, s.timestamp, nows[1..], outcomes[1..])
  }

  /** The module-level `cachedVersions`/`cacheTimestamp` pair. */
  class VersionListCache {
    var cachedVersions: Option<seq<GridVersion>>
    var cacheTimestamp: int
    /** How many listing requests have been made. */
    ghost var fetches: nat

    constructor()
      ensures cachedVersions == None && cacheTimestamp == 0 && fetches == 0
    {
      cachedVersions := None;
      cacheTimestamp := 0;
      fetches := 0;
    }

    /** `getVersions()`. */
    method GetVersions(now: int, fetched: Result<seq<GridVersion>, string>) returns (r: Result<seq<GridVersion>, string>)
      modifies this
      ensures var s := GetVersionsStep(old(cachedVersions), old(cacheTimestamp), now, fetched);
        r == s.result && cachedVersions == s.cached && cacheTimestamp == s.timestamp &&
        fetches == old(fetches) + (if s.fetched then 1 else 0)
    {
      if cachedVersions.Some? && now - cacheTimestamp < CACHE_DURATION {
        return Ok(cachedVersions.value);
      }
      fetches := fetches + 1;
      if fetched.Ok? {
        cachedVersions := Some(fetched.value);
        cacheTimestamp := now;
        return fetched;
      }
      if cachedVersions.Some? {
        return Ok(cachedVersions.value);
      }
      r := Err(fetched.error);
    }
  }

  function IsLatestEntry(v: GridVersion): bool { v.isLatest }

  /** `getLatestVersion` on the settled `getVersions` promise: the `version` of the
      first entry flagged latest, or nothing. */
  function GetLatestVersion(versions: Result<seq<GridVersion>, string>): (r: Result<Option<string>, string>)
    ensures versions.Err? ==> r == Err(versions.error)
    ensures versions.Ok? ==> r.Ok?
    ensures r.Ok? && r.value.None? <==>
      versions.Ok? && forall i :: 0 <= i < |versions.value| ==> !versions.value[i].isLatest
    ensures r.Ok? && r.value.Some? ==>
      exists i :: 0 <= i < |versions.value| && versions.value[i].isLatest &&
        versions.value[i].version == r.value.value &&
        forall j :: 0 <= j < i ==> !versions.value[j].isLatest
  {
    match versions
    case Err(e) => Err(e)
    case Ok(vs) =>
      match Find(vs, IsLatestEntry)
      case None => Ok(None)
      case Some(v) => Ok(Some(v.version))
  }

  /** `isValidVersion(v)`: some entry's `version` is `v`. */
  function IsValidVersion(versions: Result<seq<GridVersion>, string>, v: string): (r: Result<bool, string>)
    ensures versions.Err? ==> r == Err(versions.error)
    ensures versions.Ok? ==> r.Ok? && (r.value <==> exists i :: 0 <= i < |versions.value| && versions.value[i].version == v)
  {
    match versions
    case Err(e) => Err(e)
    case Ok(vs) => Ok(HasVersion(vs, v))
  }

  function HasVersion(vs: seq<GridVersion>, v: string): (b: bool)
    ensures b <==> exists i :: 0 <= i < |vs| && vs[i].version == v
  {
    if vs == [] then false
    else vs[0].version == v || HasVersion(vs[1..], v)
  }

  // ---- getAvailableVersions ----

  /** `Number(part)` for one dot-separated part: its value when it is a digit string
      (the empty string gives 0); a missing or non-numeric part counts as 0. */
  function PartNumber(parts: seq<string>, i: nat): nat
  {
    if i < |parts| && AllDigits(parts[i]) then DigitsValue(parts[i]) else 0
  }

  /** The (major, minor, patch) triple the comparator reads from a version string. */
  function VersionKey(v: string): SemverType
  {
    var parts := Split(v, '.');
    SemverType(PartNumber(parts, 0), PartNumber(parts, 1), PartNumber(parts, 2))
  }

  /** A canonical `MAJOR.MINOR.PATCH` string sorts by the version it spells. */
  lemma VersionKeyFormat(v: SemverType)
    ensures VersionKey(Format(v)) == v
  {
    var parts := [NatToString(v.major), NatToString(v.minor), NatToString(v.patch)];
    assert Join(parts[2..], '.') == parts[2];
    assert Join(parts[1..], '.') == parts[1] + "." + parts[2];
    assert Join(parts, '.') == Format(v);
    forall i | 0 <= i < 3
      ensures '.' !in parts[i]
    {
      assert AllDigits(parts[i]);
    }
    SplitJoin(parts, '.');
    NatToStringValue(v.major);
    NatToStringValue(v.minor);
    NatToStringValue(v.patch);
  }

  /** `a` sorts no later than `b` under `key`: its key is not smaller. */
  predicate NotBelow(a: string, b: string, key: string -> SemverType)
  {
    !Lt(key(a), key(b))
  }

  /** Newest first under `key`. */
  predicate SortedNewestFirst(s: seq<string>, key: string -> SemverType)
  {
    forall i, j :: 0 <= i < j < |s| ==> NotBelow(s[i], s[j], key)
  }

  /** Not-below is a total preorder. */
  lemma NotBelowPreorder(a: string, b: string, c: string, key: string -> SemverType)
    ensures NotBelow(a, b, key) || NotBelow(b, a, key)
    ensures NotBelow(a, b, key) && NotBelow(b, c, key) ==> NotBelow(a, c, key)
  {
    Trichotomy(key(a), key(b));
    Trichotomy(key(b), key(c));
    Trichotomy(key(a), key(c));
  }

  /** Places `x` in front of the first entry whose key is not greater than its own,
      so that `x` stays ahead of entries it ties with. */
  function Insert(x: string, sorted: seq<string>, key: string -> SemverType): (r: seq<string>)
    ensures multiset(r) == multiset(sorted) + multiset{x}
    ensures |r| == |sorted| + 1
  {
    if sorted == [] || NotBelow(x, sorted[0], key) then [x] + sorted
    else
      assert sorted == [sorted[0]] + sorted[1..];
      [sorted[0]] + Insert(x, sorted[1..], key)
  }

  lemma {:induction false} InsertSorted(x: string, sorted: seq<string>, key: string -> SemverType)
    requires SortedNewestFirst(sorted, key)
    ensures SortedNewestFirst(Insert(x, sorted, key), key)
  {
    if sorted == [] {
    } else if NotBelow(x, sorted[0], key) {
      forall j | 0 <= j < |sorted|
        ensures NotBelow(x, sorted[j], key)
      {
        NotBelowPreorder(x, sorted[0], sorted[j], key);
      }
    } else {
      InsertSorted(x, sorted[1..], key);
      var tail := Insert(x, sorted[1..], key);
      HeadNotBelowInserted(x, sorted, key);
      var r := Insert(x, sorted, key);
      assert r == [sorted[0]] + tail;
      ConsSorted(sorted[0], tail, key);
    }
  }

  /** The head of a sorted list that stays in front of `x` is not below
      anything `x`'s insertion into the rest yields. */
  lemma HeadNotBelowInserted(x: string, sorted: seq<string>, key: string -> SemverType)
    requires sorted != [] && SortedNewestFirst(sorted, key)
    requires !NotBelow(x, sorted[0], key)
    ensures forall k :: 0 <= k < |sorted| ==> NotBelow(sorted[0], Insert(x, sorted[1..], key)[k], key)
  {
    var tail := Insert(x, sorted[1..], key);
    forall k | 0 <= k < |tail|
      ensures NotBelow(sorted[0], tail[k], key)
    {
      assert tail[k] in multiset(tail);
      if tail[k] == x {
        NotBelowPreorder(x, sorted[0], x, key);
      } else {
        assert tail[k] in multiset(sorted[1..]);
        var m :| 0 <= m < |sorted[1..]| && sorted[1..][m] == tail[k];
        assert sorted[m + 1] == tail[k];
      }
    }
  }

  /** A sorted list stays sorted under a head not below any of its elements. */
  lemma ConsSorted(h: string, tail: seq<string>, key: string -> SemverType)
    requires SortedNewestFirst(tail, key)
    requires forall k :: 0 <= k < |tail| ==> NotBelow(h, tail[k], key)
    ensures SortedNewestFirst([h] + tail, key)
  {
    var r := [h] + tail;
    forall i, j | 0 <= i < j < |r|
      ensures NotBelow(r[i], r[j], key)
    {
      assert r[j] == tail[j - 1];
      if i > 0 {
        assert r[i] == tail[i - 1];
      }
    }
  }

  /** `Array.prototype.sort` with a newest-first comparator over `key`: a
      permutation of the input, newest first. */
  function SortNewestFirst(vs: seq<string>, key: string -> SemverType): (r: seq<string>)
    ensures SortedNewestFirst(r, key)
    ensures multiset(r) == multiset(vs)
  {
    if vs == [] then []
    else
      assert vs == [vs[0]] + vs[1..];
      InsertSorted(vs[0], SortNewestFirst(vs[1..], key), key);
      Insert(vs[0], SortNewestFirst(vs[1..], key), key)
  }

  function VersionStrings(vs: seq<GridVersion>): (r: seq<string>)
    ensures |r| == |vs| && forall i :: 0 <= i < |vs| ==> r[i] == vs[i].version
  {
    seq(|vs|, i requires 0 <= i < |vs| => vs[i].version)
  }

  /** `getAvailableVersions`: the version strings, newest first. */
  function GetAvailableVersions(versions: Result<seq<GridVersion>, string>): (r: Result<seq<string>, string>)
    ensures versions.Err? ==> r == Err(versions.error)
    ensures versions.Ok? ==> r.Ok?
    ensures r.Ok? ==> versions.Ok? && SortedNewestFirst(r.value, VersionKey)
    ensures r.Ok? ==> multiset(r.value) == multiset(VersionStrings(versions.value))
  {
    match versions
    case Err(e) => Err(e)
    case Ok(vs) => Ok(SortNewestFirst(VersionStrings(vs), VersionKey))
  }

  /** Every listed version string appears in the result and nothing else does. */
  lemma AvailableVersionsMembers(vs: seq<GridVersion>, v: string)
    ensures v in GetAvailableVersions(Ok(vs)).value <==> exists i :: 0 <= i < |vs| && vs[i].version == v
  {
    var r := GetAvailableVersions(Ok(vs)).value;
    var strs := VersionStrings(vs);
    assert v in r <==> v in multiset(r);
    assert v in strs <==> v in multiset(strs);
    if v in strs {
      var i :| 0 <= i < |strs| && strs[i] == v;
      assert vs[i].version == v;
    }
  }
}

=== FILE: workspace.dfy ===
/** A workspace (src/workspace/index.ts): one client root with its optional grid
    context, the prompts and lookups it offers and the content queries it runs
    against the framework and version endpoints. An endpoint call is represented
    by the outcome its promise settles to, passed in as a parameter. */
module Workspaces {
  import opened Wrappers
  import opened Collections
  import opened Strings
  import opened Semver
  import opened Schema

  /** `WorkspaceContext`: the grid version, framework and licence of a root. */
  datatype WorkspaceContext = WorkspaceContext(version: Version, framework: string, isEnterprise: bool)

  /** An MCP protocol error: a JSON-RPC error code and a message. */
  datatype McpError = McpError(code: int, message: string)

  /** "Method not found" (section 5.1 of the JSON-RPC 2.0 specification). */
  const MethodNotFound: int := -32601

  const QuickStart := "quick-start"
  const MigrateVersion := "migrate-version"

  /** The identifier the constructor derives: the last "/" segment of the URI, or
      "workspace" when that segment is empty. The constructor tests the workspace
      name before assigning it, so the name never takes part. */
  function WorkspaceId(uri: string): (id: string)
    ensures id != "" && '/' !in id
    ensures LastPart(uri, '/') != "" ==> id == LastPart(uri, '/')
  {
    var last := LastPart(uri, '/');
    if last == "" then "workspace" else last
  }

  /** The identifier of a URI that ends in a non-empty segment is that segment. */
  lemma WorkspaceIdIsLastSegment(prefix: string, segment: string)
    requires segment != "" && '/' !in segment
    ensures WorkspaceId(prefix + "/" + segment) == segment
  {
    LastPartAfter(prefix, '/', segment);
  }

  /** A URI ending in "/" is identified as "workspace". */
  lemma WorkspaceIdOfTrailingSlash(prefix: string)
    ensures WorkspaceId(prefix + "/") == "workspace"
  {
    LastPartAfter(prefix, '/', "");
    assert prefix + "/" == prefix + ['/'] + "";
  }

  /** The prompts a workspace offers: the quick start without a grid, the migration
      prompt on an outdated grid, nothing on the latest one. */
  function PromptsFor(context: Option<WorkspaceContext>): (ps: seq<string>)
    ensures context.None? ==> ps == [QuickStart]
    ensures context.Some? && !context.value.version.isLatest ==> ps == [MigrateVersion]
    ensures context.Some? && context.value.version.isLatest ==> ps == []
  {
    if context.None? then [QuickStart]
    else if !context.value.version.isLatest then [MigrateVersion]
    else []
  }

  function InvalidContext(uri: string): string
  {
    "Workspace " + uri + " does not have valid AG-Grid context"
  }

  /** `doc.name` or a present, non-empty `doc.description` contains the lowered query. */
  predicate DocMatches(d: Doc, lowerQuery: string)
  {
    Contains(Lower(d.name), lowerQuery) ||
    (d.description.Some? && d.description.value != "" && Contains(Lower(d.description.value), lowerQuery))
  }

  function DocQuery(lowerQuery: string): Doc -> bool { (d: Doc) => DocMatches(d, lowerQuery) }

  predicate ExampleMatches(e: Example, lowerQuery: string)
  {
    Contains(Lower(e.exampleName), lowerQuery) || Contains(Lower(e.pageName), lowerQuery)
  }

  function ExampleQuery(lowerQuery: string): Example -> bool { (e: Example) => ExampleMatches(e, lowerQuery) }

  /** `module.name` or a present, non-empty `module.moduleName` contains the lowered feature. */
  predicate ModuleMatches(m: Module, lowerFeature: string)
  {
    Contains(Lower(m.name), lowerFeature) ||
    (m.moduleName.Some? && m.moduleName.value != "" && Contains(Lower(m.moduleName.value), lowerFeature))
  }

  function ModuleQuery(lowerFeature: string): Module -> bool { (m: Module) => ModuleMatches(m, lowerFeature) }

  /** Every string contains the empty string. */
  lemma ContainsEmpty(s: string)
    ensures Contains(s, "")
  {
  }

  function Children(g: ModuleGroup): seq<Module>
  {
    if g.children.Some? then g.children.value else []
  }

  /** The direct children of the groups, group by group. */
  function Flatten(groups: seq<ModuleGroup>): seq<Module>
  {
    if groups == [] then [] else Flatten(groups[..|groups| - 1]) + Children(groups[|groups| - 1])
  }

  lemma {:induction false} FlattenPrefix(groups: seq<ModuleGroup>, n: nat)
    requires n <= |groups|
    ensures Flatten(groups[..n]) <= Flatten(groups)
    decreases |groups| - n
  {
    if n < |groups| {
      FlattenPrefix(groups, n + 1);
      assert groups[..n + 1][..n] == groups[..n];
    } else {
      assert groups[..n] == groups;
    }
  }

  /** A first match found by scanning gives the index `FindIndex` computes. */
  lemma FindIndexAt<T>(xs: seq<T>, p: T -> bool, k: nat)
    requires k < |xs| && p(xs[k])
    requires forall j :: 0 <= j < k ==> !p(xs[j])
    ensures FindIndex(xs, p) == k
  {
  }

  /** The decision `isFeatureAvailable` reaches on a module list: the first direct
      child, in group order, that matches decides; an enterprise module is
      unavailable to a community workspace; no match means unavailable. */
  function FeatureAvailable(groups: seq<ModuleGroup>, feature: string, enterprise: bool): (r: bool)
    ensures r ==> exists i :: 0 <= i < |Flatten(groups)| && ModuleMatches(Flatten(groups)[i], Lower(feature))
  {
    var flat := Flatten(groups);
    var k := FindIndex(flat, ModuleQuery(Lower(feature)));
    k < |flat| && !(flat[k].isEnterprise && !enterprise)
  }

  /** An enterprise workspace has every feature some module matches. */
  lemma EnterpriseHasEveryMatchedFeature(groups: seq<ModuleGroup>, feature: string)
    ensures FeatureAvailable(groups, feature, true) <==>
      exists i :: 0 <= i < |Flatten(groups)| && ModuleMatches(Flatten(groups)[i], Lower(feature))
  {
    if exists i :: 0 <= i < |Flatten(groups)| && ModuleMatches(Flatten(groups)[i], Lower(feature)) {
      var i :| 0 <= i < |Flatten(groups)| && ModuleMatches(Flatten(groups)[i], Lower(feature));
      MatchMakesAvailable(Flatten(groups), groups, feature, i);
    }
  }

  /** A matching module makes the feature available to an enterprise workspace. */
  lemma MatchMakesAvailable(flat: seq<Module>, groups: seq<ModuleGroup>, feature: string, i: nat)
    requires flat == Flatten(groups)
    requires i < |flat| && ModuleMatches(flat[i], Lower(feature))
    ensures FeatureAvailable(groups, feature, true)
  {
    var q := ModuleQuery(Lower(feature));
    assert q(flat[i]);
    assert FindIndex(flat, q) <= i;
  }

  /** For a community workspace the first match decides: available exactly when it
      is not an enterprise module. */
  lemma CommunityFirstMatchDecides(groups: seq<ModuleGroup>, feature: string, k: nat)
    requires k < |Flatten(groups)| && ModuleMatches(Flatten(groups)[k], Lower(feature))
    requires forall j :: 0 <= j < k ==> !ModuleMatches(Flatten(groups)[j], Lower(feature))
    ensures FeatureAvailable(groups, feature, false) <==> !Flatten(groups)[k].isEnterprise
  {
    FindIndexAt(Flatten(groups), ModuleQuery(Lower(feature)), k);
  }

  /** The migrations strictly between two versions. */
  predicate InRange(m: Migration, from: SemverType, to: SemverType)
  {
    Between(m.semver, from, to)
  }

  function MigrationInRange(from: SemverType, to: SemverType): Migration -> bool
  {
    (m: Migration) => InRange(m, from, to)
  }

  /** The URLs of a list of docs, in order. */
  function DocUrls(ds: seq<Doc>): (u: seq<string>)
    ensures |u| == |ds| && forall i :: 0 <= i < |ds| ==> u[i] == ds[i].url
  {
    seq(|ds|, i requires 0 <= i < |ds| => ds[i].url)
  }

  /** The URLs of a list of examples, in order. */
  function ExampleUrls(es: seq<Example>): (u: seq<string>)
    ensures |u| == |es| && forall i :: 0 <= i < |es| ==> u[i] == es[i].url
  {
    seq(|es|, i requires 0 <= i < |es| => es[i].url)
  }

  /** The filter callback as written: a block body without `return`, whose
      `undefined` result rejects every element. */
  function MigrationCallbackAsWritten(from: SemverType, to: SemverType): Migration -> bool
  {
    (m: Migration) => var _ := Between(m.semver, from, to); false
  }

  class Workspace {
    const id: string
    const name: Option<string>
    const uri: string
    const context: Option<WorkspaceContext>
    const prompts: seq<string>
    /** Never populated. */
    const tools: seq<string> := []

    constructor(name: Option<string>, uri: string, context: Option<WorkspaceContext>)
      ensures this.id == WorkspaceId(uri)
      ensures this.name == name && this.uri == uri && this.context == context
      ensures this.prompts == PromptsFor(context)
    {
      this.id := WorkspaceId(uri);
      this.name := name;
      this.uri := uri;
      this.context := context;
      this.prompts := PromptsFor(context);
    }

    /** `isInstalled`. */
    function IsInstalled(): (r: bool)
      ensures r <==> context.Some?
    {
      context != None
    }

    /** `isEnterprise`: false without a context. */
    function IsEnterprise(): (r: bool)
      ensures r <==> context.Some? && context.value.isEnterprise
    {
      context.Some? && context.value.isEnterprise
    }

    /** `framework` and `version`: undefined without a context. */
    function FrameworkName(): (r: Option<string>)
      ensures r.Some? <==> context.Some?
      ensures r.Some? ==> r.value == context.value.framework
    {
      if context.Some? then Some(context.value.framework) else None
    }

    function VersionId(): (r: Option<string>)
      ensures r.Some? <==> context.Some?
      ensures r.Some? ==> r.value == context.value.version.id
    {
      if context.Some? then Some(context.value.version.id) else None
    }

    /** `displayName`: the name, else the last URI segment, else the whole URI. */
    function DisplayName(): (r: string)
      ensures name.Some? && name.value != "" ==> r == name.value
      ensures (name.None? || name.value == "") && LastPart(uri, '/') != "" ==> r == LastPart(uri, '/')
      ensures (name.None? || name.value == "") && LastPart(uri, '/') == "" ==> r == uri
    {
      if name.Some? && name.value != "" then name.value
      else if LastPart(uri, '/') != "" then LastPart(uri, '/')
      else uri
    }

    /** `ensureValid()`: the context, or the error a workspace without one raises. */
    function EnsureValid(): (r: Result<WorkspaceContext, string>)
      ensures r.Ok? <==> IsInstalled()
      ensures r.Ok? ==> r.value == context.value
      ensures r.Err? ==> r.error == InvalidContext(uri)
    {
      match context
      case None => Err(InvalidContext(uri))
      case Some(c) => Ok(c)
    }

    /** `handlePromptCall(name)`'s lookup. */
    function FindPrompt(promptName: string): (r: Result<string, McpError>)
      ensures r.Ok? <==> promptName in prompts
      ensures r.Ok? ==> r.value == promptName
      ensures r.Err? ==> r.error == McpError(MethodNotFound, "Couldn't find prompt")
    {
      if promptName in prompts then Ok(promptName)
      else Err(McpError(MethodNotFound, "Couldn't find prompt"))
    }

    /** `listTools()`. */
    function ListTools(): (r: seq<string>)
      ensures r == []
    {
      tools
    }

    /** `handleToolCall(name)`: no tool is ever registered, so every call fails. */
    function HandleToolCall(toolName: string): (r: Result<string, McpError>)
      ensures r == Err(McpError(MethodNotFound, "Couldn't find tool"))
    {
      if toolName in tools then Ok(toolName)
      else Err(McpError(MethodNotFound, "Couldn't find tool"))
    }

    /** A framework-endpoint query (`getDocs`, `getExamples`, `getMigrations`,
        `getApi`): it fails with the invalid-context error without a context,
        otherwise it settles as the endpoint call does. */
    function FrameworkQuery(outcome: Result<Value, string>): (r: Result<Value, string>)
      ensures context.None? ==> r == Err(InvalidContext(uri))
      ensures context.Some? ==> r == outcome
    {
      if context.None? then Err(InvalidContext(uri)) else outcome
    }

    /** `searchDocs(query)` on what the framework endpoint's `docs()` settles to. */
    function SearchDocs(query: string, docs: Result<Value, string>): (r: Result<seq<Doc>, string>)
      ensures AsDocs(FrameworkQuery(docs)).Err? ==> r == Err(AsDocs(FrameworkQuery(docs)).error)
      ensures AsDocs(FrameworkQuery(docs)).Ok? ==> r.Ok?
      ensures r.Ok? ==>
        var all := AsDocs(FrameworkQuery(docs)).value;
        (forall i :: 0 <= i < |r.value| ==> DocMatches(r.value[i], Lower(query)) && r.value[i] in all) &&
        (forall i :: 0 <= i < |all| && DocMatches(all[i], Lower(query)) ==> all[i] in r.value)
      ensures r.Ok? ==> r.value == Filter(AsDocs(FrameworkQuery(docs)).value, DocQuery(Lower(query)))
    {
      match AsDocs(FrameworkQuery(docs))
      case Err(e) => Err(e)
      case Ok(all) =>
        var r := Filter(all, DocQuery(Lower(query)));
        assert forall i :: 0 <= i < |all| && DocMatches(all[i], Lower(query)) ==> DocQuery(Lower(query))(all[i]);
        Ok(r)
    }

    /** `searchExamples(type, query)` on what `examples(type)` settles to. */
    function SearchExamples(query: string, examples: Result<Value, string>): (r: Result<seq<Example>, string>)
      ensures AsExamples(FrameworkQuery(examples)).Err? ==> r == Err(AsExamples(FrameworkQuery(examples)).error)
      ensures AsExamples(FrameworkQuery(examples)).Ok? ==> r.Ok?
      ensures r.Ok? ==>
        var all := AsExamples(FrameworkQuery(examples)).value;
        (forall i :: 0 <= i < |r.value| ==> ExampleMatches(r.value[i], Lower(query)) && r.value[i] in all) &&
        (forall i :: 0 <= i < |all| && ExampleMatches(all[i], Lower(query)) ==> all[i] in r.value)
      ensures r.Ok? ==> r.value == Filter(AsExamples(FrameworkQuery(examples)).value, ExampleQuery(Lower(query)))
    {
      match AsExamples(FrameworkQuery(examples))
      case Err(e) => Err(e)
      case Ok(all) =>
        var r := Filter(all, ExampleQuery(Lower(query)));
        assert forall i :: 0 <= i < |all| && ExampleMatches(all[i], Lower(query)) ==> ExampleQuery(Lower(query))(all[i]);
        Ok(r)
    }

    /** `getDocsForLicense()`: every doc for an enterprise workspace, only the
        community docs otherwise. */
    function GetDocsForLicense(docs: Result<Value, string>): (r: Result<seq<Doc>, string>)
      ensures AsDocs(FrameworkQuery(docs)).Err? ==> r == Err(AsDocs(FrameworkQuery(docs)).error)
      ensures AsDocs(FrameworkQuery(docs)).Ok? && IsEnterprise() ==> r == AsDocs(FrameworkQuery(docs))
      ensures AsDocs(FrameworkQuery(docs)).Ok? && !IsEnterprise() ==>
        var all := AsDocs(FrameworkQuery(docs)).value;
        r.Ok? &&
        (forall i :: 0 <= i < |r.value| ==> !r.value[i].isEnterprise && r.value[i] in all) &&
        (forall i :: 0 <= i < |all| && !all[i].isEnterprise ==> all[i] in r.value) &&
        r.value == Filter(all, (d: Doc) => !d.isEnterprise)
    {
      match AsDocs(FrameworkQuery(docs))
      case Err(e) => Err(e)
      case Ok(all) => if IsEnterprise() then Ok(all) else Ok(Filter(all, (d: Doc) => !d.isEnterprise))
    }

    /** The docs the resource listing offers: `isEnterprise || !doc.isEnterprise`. */
    function ResourceDocs(all: seq<Doc>): seq<Doc>
    {
      Filter(all, (d: Doc) => IsEnterprise() || !d.isEnterprise)
    }

    /** The names `getResources` registers, in order: the URLs of the docs the
        licence admits, of the API docs and of the TypeScript examples. The
        combined promise fails when any of the three queries fails. */
    function ResourceNames(docs: Result<Value, string>, api: Result<Value, string>, examples: Result<Value, string>): (r: Result<seq<string>, string>)
      ensures r.Ok? <==>
        AsDocs(FrameworkQuery(docs)).Ok? && AsDocs(FrameworkQuery(api)).Ok? && AsExamples(FrameworkQuery(examples)).Ok?
      ensures context.None? ==> r == Err(InvalidContext(uri))
      ensures r.Ok? ==>
        var ds := ResourceDocs(AsDocs(FrameworkQuery(docs)).value);
        var apiDocs := AsDocs(FrameworkQuery(api)).value;
        var es := AsExamples(FrameworkQuery(examples)).value;
        |r.value| == |ds| + |apiDocs| + |es| &&
        (forall i :: 0 <= i < |ds| ==> r.value[i] == ds[i].url) &&
        (forall i :: 0 <= i < |apiDocs| ==> r.value[|ds| + i] == apiDocs[i].url) &&
        (forall i :: 0 <= i < |es| ==> r.value[|ds| + |apiDocs| + i] == es[i].url)
    {
      match AsDocs(FrameworkQuery(docs))
      case Err(e) => Err(e)
      case Ok(all) =>
        match AsDocs(FrameworkQuery(api))
        case Err(e) => Err(e)
        case Ok(apiDocs) =>
          match AsExamples(FrameworkQuery(examples))
          case Err(e) => Err(e)
          case Ok(es) =>
            Ok(DocUrls(ResourceDocs(all)) + DocUrls(apiDocs) + ExampleUrls(es))
    }

    /** `handleResource(uri)`'s lookup among the registered names. */
    function FindResource(resourceUri: string, names: seq<string>): (r: Result<string, McpError>)
      ensures r.Ok? <==> resourceUri in names
      ensures r.Ok? ==> r.value == resourceUri
      ensures r.Err? ==> r.error == McpError(MethodNotFound, "Couldn't find resource")
    {
      if resourceUri in names then Ok(resourceUri)
      else Err(McpError(MethodNotFound, "Couldn't find resource"))
    }

    /** Every doc the licence admits can be read as a resource. */
    lemma AdmittedDocIsFound(docs: Result<Value, string>, api: Result<Value, string>, examples: Result<Value, string>, d: Doc)
      requires ResourceNames(docs, api, examples).Ok?
      requires d in AsDocs(FrameworkQuery(docs)).value
      requires IsEnterprise() || !d.isEnterprise
      ensures FindResource(d.url, ResourceNames(docs, api, examples).value).Ok?
    {
      var ds := ResourceDocs(AsDocs(FrameworkQuery(docs)).value);
      assert d in ds;
      var i :| 0 <= i < |ds| && ds[i] == d;
      assert ResourceNames(docs, api, examples).value[i] == d.url;
    }

    /** The resource listing and `getDocsForLicense` show the same docs. */
    lemma ResourceDocsMatchLicense(docs: Result<Value, string>)
      requires AsDocs(FrameworkQuery(docs)).Ok?
      ensures GetDocsForLicense(docs) == Ok(ResourceDocs(AsDocs(FrameworkQuery(docs)).value))
    {
      var all := AsDocs(FrameworkQuery(docs)).value;
      if IsEnterprise() {
        FilterAll(all, (d: Doc) => IsEnterprise() || !d.isEnterprise);
      } else {
        FilterSame(all, (d: Doc) => !d.isEnterprise, (d: Doc) => IsEnterprise() || !d.isEnterprise);
      }
    }

    /** `getMigrationPath(target)` as written: the callback never returns a value,
        so every migration is dropped. */
    function GetMigrationPathAsWritten(target: Version, migrations: Result<Value, string>): (r: Result<seq<Migration>, string>)
      ensures context.None? ==> r == Err(InvalidContext(uri))
      ensures r.Ok? ==> r.value == []
    {
      match EnsureValid()
      case Err(e) => Err(e)
      case Ok(c) =>
        match AsMigrations(FrameworkQuery(migrations))
        case Err(e) => Err(e)
        case Ok(ms) =>
          FilterNone(ms, MigrationCallbackAsWritten(c.version.semver, target.semver));
          Ok(Filter(ms, MigrationCallbackAsWritten(c.version.semver, target.semver)))
    }

    /** `getMigrationPath(target)` as evidently intended: the migrations strictly
        between the workspace's version and the target, in their listed order. */
    function GetMigrationPath(target: Version, migrations: Result<Value, string>): (r: Result<seq<Migration>, string>)
      ensures context.None? ==> r == Err(InvalidContext(uri))
      ensures context.Some? && AsMigrations(migrations).Err? ==> r == Err(AsMigrations(migrations).error)
      ensures context.Some? && AsMigrations(migrations).Ok? ==> r.Ok?
      ensures r.Ok? ==>
        var all := AsMigrations(migrations).value;
        var from := context.value.version.semver;
        (forall i :: 0 <= i < |r.value| ==> InRange(r.value[i], from, target.semver) && r.value[i] in all) &&
        (forall i :: 0 <= i < |all| && InRange(all[i], from, target.semver) ==> all[i] in r.value) &&
        r.value == Filter(all, MigrationInRange(from, target.semver))
      ensures r.Ok? && !Gt(target.semver, context.value.version.semver) ==> r.value == []
    {
      match EnsureValid()
      case Err(e) => Err(e)
      case Ok(c) =>
        match AsMigrations(FrameworkQuery(migrations))
        case Err(e) => Err(e)
        case Ok(ms) =>
          var r := Filter(ms, MigrationInRange(c.version.semver, target.semver));
          assert forall i :: 0 <= i < |ms| && InRange(ms[i], c.version.semver, target.semver) ==>
            MigrationInRange(c.version.semver, target.semver)(ms[i]);
          assert r != [] ==> InRange(r[0], c.version.semver, target.semver);
          Ok(r)
    }

    /** `isFeatureAvailable(feature)` on what the version endpoint's `modules()`
        settles to; any failure (no context, a failed request, an unexpected shape)
        answers false. */
    method IsFeatureAvailable(feature: string, modules: Result<Value, string>) returns (r: bool)
      ensures r <==> context.Some? && AsModuleGroups(modules).Ok? &&
                     FeatureAvailable(AsModuleGroups(modules).value, feature, IsEnterprise())
    {
      if context.None? {
        return false;
      }
      var groups := AsModuleGroups(modules);
      if groups.Err? {
        return false;
      }
      var gs := groups.value;
      var q := Lower(feature);
      var i := 0;
      while i < |gs|
        invariant 0 <= i <= |gs|
        invariant forall k :: 0 <= k < |Flatten(gs[..i])| ==> !ModuleMatches(Flatten(gs[..i])[k], q)
      {
        assert gs[..i + 1][..i] == gs[..i];
        if gs[i].children.Some? {
          var children := gs[i].children.value;
          var j := 0;
          while j < |children|
            invariant 0 <= j <= |children|
            invariant forall k :: 0 <= k < j ==> !ModuleMatches(children[k], q)
          {
            var m := children[j];
            if Contains(Lower(m.name), q) ||
               (m.moduleName.Some? && m.moduleName.value != "" && Contains(Lower(m.moduleName.value), q)) {
              FirstMatchInGroups(gs, i, j, q);
              if m.isEnterprise && !IsEnterprise() {
                return false;
              }
              return true;
            }
            j := j + 1;
          }
        }
        i := i + 1;
      }
      assert gs[..i] == gs;
      NoMatchInGroups(gs, q);
      r := false;
    }
  }

  /** The child the nested scan stops at is the first match of the flattened list. */
  lemma FirstMatchInGroups(gs: seq<ModuleGroup>, i: nat, j: nat, q: string)
    requires i < |gs| && gs[i].children.Some? && j < |gs[i].children.value|
    requires ModuleMatches(gs[i].children.value[j], q)
    requires forall k :: 0 <= k < |Flatten(gs[..i])| ==> !ModuleMatches(Flatten(gs[..i])[k], q)
    requires forall k :: 0 <= k < j ==> !ModuleMatches(gs[i].children.value[k], q)
    ensures var flat := Flatten(gs);
      |Flatten(gs[..i])| + j < |flat| &&
      FindIndex(flat, ModuleQuery(q)) == |Flatten(gs[..i])| + j &&
      flat[|Flatten(gs[..i])| + j] == gs[i].children.value[j]
  {
    var pre := Flatten(gs[..i]);
    var children := gs[i].children.value;
    assert gs[..i + 1][..i] == gs[..i];
    assert Flatten(gs[..i + 1]) == pre + children;
    FlattenPrefix(gs, i + 1);
    var flat := Flatten(gs);
    var k := |pre| + j;
    assert flat[k] == children[j];
    forall m | 0 <= m < k
      ensures !ModuleQuery(q)(flat[m])
    {
      if m < |pre| {
        assert flat[m] == pre[m];
      } else {
        assert flat[m] == children[m - |pre|];
      }
    }
    FindIndexAt(flat, ModuleQuery(q), k);
  }

  lemma NoMatchInGroups(gs: seq<ModuleGroup>, q: string)
    requires forall k :: 0 <= k < |Flatten(gs)| ==> !ModuleMatches(Flatten(gs)[k], q)
    ensures FindIndex(Flatten(gs), ModuleQuery(q)) == |Flatten(gs)|
  {
  }

  /** Two predicates that agree on every element filter alike. */
  lemma {:induction false} FilterSame<T>(xs: seq<T>, p: T -> bool, p': T -> bool)
    requires forall i :: 0 <= i < |xs| ==> p(xs[i]) == p'(xs[i])
    ensures Filter(xs, p) == Filter(xs, p')
    decreases |xs|
  {
    if xs != [] {
      FilterSame(xs[1..], p, p');
    }
  }

  /** A predicate that holds of nothing keeps nothing. */
  lemma {:induction false} FilterNone<T>(xs: seq<T>, p: T -> bool)
    requires forall i :: 0 <= i < |xs| ==> !p(xs[i])
    ensures Filter(xs, p) == []
    decreases |xs|
  {
    if xs != [] {
      FilterNone(xs[1..], p);
    }
  }

  /** The as-written migration path drops a migration that lies strictly between
      the installed version and the target, which the intended one keeps. */
  lemma MigrationPathDropsInRange(ws: Workspace)
    requires ws.context == Some(WorkspaceContext(Version("32.0.0", SemverType(32, 0, 0), "", "", false), "react", false))
    ensures var v34 := Version("34.0.0", SemverType(34, 0, 0), "", "", true);
      var m33 := Migration("33.0.0", SemverType(33, 0, 0), "", "");
      ws.GetMigrationPathAsWritten(v34, Ok(MigrationListValue([m33]))) == Ok([]) &&
      ws.GetMigrationPath(v34, Ok(MigrationListValue([m33]))) == Ok([m33])
  {
    var v32 := SemverType(32, 0, 0);
    var v34 := Version("34.0.0", SemverType(34, 0, 0), "", "", true);
    var m33 := Migration("33.0.0", SemverType(33, 0, 0), "", "");
    assert [m33][1..] == [];
    assert Filter([m33], MigrationInRange(v32, v34.semver)) == [m33];
  }
}

=== FILE: wrappers.dfy ===
/** Failure-carrying values shared by every module of the model.
    A settled JavaScript promise is a `Result`: `Ok` for a fulfilled promise,
    `Err` carrying the rejection for a rejected one. */
module Wrappers {

  /** A value that may be absent (`undefined` or `null` in the source). */
  datatype Option<+T> = None | Some(value: T) {
    function GetOr(default: T): T {
      match this
      case Some(v) => v
      case None => default
    }
  }

  /** The outcome of an operation that may throw or reject. */
  datatype Result<+T, +E> = Ok(value: T) | Err(error: E)
}
